=== FILE: README.md ===
# RateRadar core, modelled in Dafny

This project models the sequential logic of the RateRadar FOMC dashboards. It covers:

- the retrieval-augmented assistant: a FAISS paragraph store with a parallel `metadata` list, a snapshot rewritten after every store, a query that joins returned ids against the snapshot, and the prompts and chat messages sent to Azure OpenAI;
- the two sentiment tools: keyword scoring of hawkish and dovish terms, and FinBERT over fixed-size chunks;
- the scraper's row filter, URL generation and saved file;
- the trader dashboard's keyword chatbot and tab navigation;
- the question-answer block of the two RateRadar pages.

The libraries are opaque function parameters: the sentence-embedding model, FAISS search, FinBERT, the completion service, `strptime` and the page retrieval. Files and Streamlit session state are immutable values: `Disk` and `Store` in `VectorStore`, and `Option<string>` for `current_tab`.

| file | module | source |
|---|---|---|
| wrappers.dfy | `Wrappers` | `Option` and `Result` |
| text.dfy | `Text` | Python's `in`, `join`, `split` and ASCII `lower` on strings |
| vector_store.dfy | `VectorStore` | `store_in_faiss` and `query_faiss` |
| openai_helper.dfy | `OpenAIHelper` | `AzureOpenAIHelper` (`retrieve_context`, `get_response`) |
| text_cleaning.dfy | `TextCleaning` | both `clean_text` functions |
| keyword_sentiment.dfy | `KeywordSentiment` | `Semantic_talk/NLP.py` |
| chunked_sentiment.dfy | `ChunkedSentiment` | `Semantic_talk/NLP_advanced.py` |
| data_fetcher.dfy | `DataFetcher` | `fomc_app/modules/data_fetcher.py` |
| trader_dashboard.dfy | `TraderDashboard` | `fomc_app/main.py` |
| question_pages.dfy | `QuestionPages` | `chatbot_assistant.py` and `app.py` |

## Behaviour worth knowing

- A store does not load an existing snapshot. The process starts with an empty in-memory index and list, appends to them, and overwrites both snapshot files. Whatever an earlier process saved is lost (`StoresKeepAlignment`).
- Loading checks nothing. Index size and metadata length are never compared. An id past the end of the list raises `IndexError`, and a negative id reads from the end of the list.
- `top_k` is not validated. It goes straight to the search.
- Two prompt templates exist. The helper builds a "User Query:" prompt. The dashboard pages build a "Question:" prompt and pass it to a helper that sends it unchanged.
- When retrieval on the pages returns no hits, the page shows the error "No relevant data found for your query." and requests no completion.

## Model

| member | source | states |
|---|---|---|
| VectorStore.Initial | PythonProject2/fomc_app/modules/sentence_transformer.py:9-11 | at import time the index and the metadata list are empty and aligned; the files are whatever an earlier run left |
| VectorStore.Encode | PythonProject2/fomc_app/modules/sentence_transformer.py:20 | one vector per paragraph, vector i the embedding of paragraph i |
| VectorStore.StoreInFaiss | PythonProject2/fomc_app/modules/sentence_transformer.py:14-31 | a store appends exactly the embeddings of the new paragraphs, in order, to the index and the paragraphs to the metadata, leaving existing entries in place; index size equals metadata length afterwards, and vector i embeds paragraph i, if both held before; both files then hold the entire in-memory index and list |
| VectorStore.StoresKeepAlignment | PythonProject2/fomc_app/modules/sentence_transformer.py:10-31 | after any run of stores from import time, index size equals metadata length and vector i is the embedding of paragraph i; the metadata is the batches in order; the snapshot equals the in-memory state, overwriting any earlier snapshot |
| VectorStore.JoinHits | PythonProject2/fomc_app/modules/sentence_transformer.py:62 | one hit per returned id, in search order; hit i is `metadata[ids[i]]` under Python indexing, with `distances[i]`; it fails exactly when an id is outside Python's index range or a distance is missing |
| VectorStore.QueryFaiss | PythonProject2/fomc_app/modules/sentence_transformer.py:46-63 | a missing index or metadata file raises. Otherwise the search runs on the index read from the file. Hit i is the paragraph the file's metadata holds at id i, Python-indexed, with distance i. The query fails exactly when an id lies outside Python's index range |
| VectorStore.QueryReadsOnlyFiles | PythonProject2/fomc_app/modules/sentence_transformer.py:50-53 | two states with the same files answer every query alike, whatever their in-memory index and list hold |
| VectorStore.JoinHitsInRange | PythonProject2/fomc_app/modules/sentence_transformer.py:62 | with in-range ids, hit i carries the paragraph stored at `ids[i]` and the i-th distance |
| VectorStore.PaddingIdReadsLastParagraph | PythonProject2/fomc_app/modules/sentence_transformer.py:62 | a -1 padding id does not raise; it yields the last stored paragraph |
| VectorStore.DemoQueryRepeatsLastParagraph | PythonProject2/fomc_app/modules/sentence_transformer.py:37-68 | the import-time demo (four paragraphs, top_k 5) returns five hits, the last paragraph among the first four and again as the fifth |
| VectorStore.DemoJoinRepeatsLast | PythonProject2/fomc_app/modules/sentence_transformer.py:62 | joining four ranked ids, one of them the last paragraph's, then the -1 padding, gives five hits: the fifth and one of the first four are both the last paragraph |
| VectorStore.JoinHitsSkippingPadding | PythonProject2/fomc_app/modules/sentence_transformer.py:62 | intended join: padding ids are dropped; the result is the as-written join over the real ids and their distances |
| VectorStore.SkippingPaddingAgreesWithoutPadding | PythonProject2/fomc_app/modules/sentence_transformer.py:62 | without padding ids, the intended join equals the join as written |
| VectorStore.QueryFaissSkippingPadding | PythonProject2/fomc_app/modules/sentence_transformer.py:46-63 | `query_faiss` with the intended join. File errors are the same. The search runs on the file's index. Hit i is the file's paragraph at the i-th non-negative id, with that id's distance. It fails exactly when an id is at or past the metadata length |
| VectorStore.PaddedTailIds | PythonProject2/fomc_app/modules/sentence_transformer.py:62 | when FAISS pads only after the ranked ids, dropping the padding leaves exactly the leading ranked ids |
| VectorStore.PaddedTailDistances | PythonProject2/fomc_app/modules/sentence_transformer.py:62 | ... and exactly their leading distances |
| VectorStore.DemoQuerySkipsPadding | PythonProject2/fomc_app/modules/sentence_transformer.py:37-68 | with the intended join, the demo query returns only the four stored paragraphs: hit j is the paragraph at the j-th returned id, with that id's distance |
| OpenAIHelper.NewHelper | PythonProject2/fomc_app/modules/sentence_transformer.py:88-109 | construction succeeds exactly when both files exist and holds their contents; the helper is a value, so later stores cannot reach it |
| OpenAIHelper.ResolveTexts | PythonProject2/fomc_app/modules/sentence_transformer.py:124 | one text per id, in order, `metadata[idx]` with Python indexing; it fails exactly when an id is out of range |
| OpenAIHelper.RetrieveContextLines | PythonProject2/fomc_app/modules/sentence_transformer.py:111-125 | splitting the retrieved context at newlines gives back the paragraphs at the returned ids, in search order |
| OpenAIHelper.PaddingPutsLastParagraphInContext | PythonProject2/fomc_app/modules/sentence_transformer.py:124-125 | a -1 padding id does not raise; its line of the context is the last stored paragraph |
| OpenAIHelper.RetrieveContextSkippingPadding | PythonProject2/fomc_app/modules/sentence_transformer.py:111-125 | intended `retrieve_context`: padding ids are skipped, so the context is the paragraphs at the non-negative ids, in search order, joined by newlines; it fails exactly when an id is at or past the metadata length |
| OpenAIHelper.SkippingPaddingContextLines | PythonProject2/fomc_app/modules/sentence_transformer.py:111-125 | with padding skipped, the context lines are the paragraphs at the non-negative ids, in search order |
| OpenAIHelper.SkippingPaddingContextAgrees | PythonProject2/fomc_app/modules/sentence_transformer.py:124 | without padding ids, the intended context equals the context as written |
| OpenAIHelper.RagPromptParts | PythonProject2/fomc_app/modules/sentence_transformer.py:148-154 | the prompt cuts at fixed offsets into the header, "Context:" block, "User Query:" block and "Instruction:" block |
| OpenAIHelper.ChooseModel | PythonProject2/fomc_app/modules/sentence_transformer.py:141 | a missing or empty model name becomes "gpt-4o-mini"; any other name is kept |
| OpenAIHelper.GetResponse | PythonProject2/fomc_app/modules/sentence_transformer.py:127-172 | a failing retrieval sends nothing and returns None; otherwise the messages are exactly [system: instruction, user: prompt] with the chosen model and temperature, and the prompt's context is the retrieved one, or empty without context |
| OpenAIHelper.NoContextNoRetrieval | PythonProject2/fomc_app/modules/sentence_transformer.py:145 | with `include_context=False` the reply depends on neither the snapshot nor the search |
| OpenAIHelper.ResponderRequest | PythonProject2/fomc_dashboard/modules/ai_responder.py:27-50 | the dashboard helper sends the caller's model, or the default model when none or an empty name is given, with the caller's temperature and the messages [system: instruction, user: message] |
| OpenAIHelper.ResponderDefaults | PythonProject2/fomc_dashboard/modules/ai_responder.py:27-40 | when omitted, `model` and `temperature` default to the default model and 1.0, and an empty model name counts as none |
| TextCleaning.CollapseShape | PythonProject2/Semantic_talk/NLP.py:16 | collapsing whitespace never lengthens the text. The only whitespace left is the plain space, and never two in a row. Every non-whitespace character survives in order |
| TextCleaning.CollapseAppend | PythonProject2/Semantic_talk/NLP.py:16 | the collapse is a left-to-right scan: collapsing a + b is collapsing a, then b in the state a left |
| TextCleaning.CollapseRun | PythonProject2/Semantic_talk/NLP.py:16 | a whitespace run of any length and kind becomes exactly one space, or nothing when it continues a run |
| TextCleaning.WhitespaceRunBecomesOneSpace | PythonProject2/Semantic_talk/NLP.py:16 | a maximal whitespace run following a non-space, or starting the text, becomes one space, and whitespace right after it is absorbed |
| TextCleaning.StripSpecialShape | PythonProject2/Semantic_talk/NLP.py:17 | dropping specials leaves only ASCII letters and whitespace from the input, never lengthens the text, and keeps every letter in order |
| TextCleaning.StripSpecialAppend | PythonProject2/Semantic_talk/NLP.py:17 | dropping specials works character by character: it distributes over concatenation |
| TextCleaning.StripSpecialOneChar | PythonProject2/Semantic_talk/NLP.py:17 | one character survives exactly when it is an ASCII letter or whitespace |
| TextCleaning.CleanKeepCase | PythonProject2/Semantic_talk/NLP_advanced.py:17-20 | the cleaned text has only ASCII letters (case kept) and spaces, and is never longer than the input |
| TextCleaning.CleanKeepCaseLetters | PythonProject2/Semantic_talk/NLP_advanced.py:17-20 | the letters of the cleaned text are the letters of the input, in order |
| TextCleaning.CleanLower | PythonProject2/Semantic_talk/NLP.py:15-19 | the cleaned text has only ASCII lower-case letters and spaces, and is never longer than the input |
| TextCleaning.CleanKeepsWordBoundary | PythonProject2/Semantic_talk/NLP_advanced.py:17-20 | two words separated by any whitespace run come out joined by exactly one space, whatever surrounds them |
| TextCleaning.CleanLowerKeepsWordBoundary | PythonProject2/Semantic_talk/NLP.py:15-19 | the same for the lower-casing `clean_text`, with the words lowered |
| TextCleaning.CleanLowerLetters | PythonProject2/Semantic_talk/NLP.py:15-19 | the letters of the cleaned text are the ASCII letters of the input, lowered, in order |
| KeywordSentiment.CountOccurrences | PythonProject2/Semantic_talk/NLP.py:25-26 | the non-overlapping occurrences counted never cover more than the text (their exact number: CountHasWitness, CountIsMaximal) |
| KeywordSentiment.CountHasWitness | PythonProject2/Semantic_talk/NLP.py:25-26 | `s.count(t)` is achieved: there are that many increasing, non-overlapping positions where t occurs |
| KeywordSentiment.CountIsMaximal | PythonProject2/Semantic_talk/NLP.py:25-26 | no set of non-overlapping occurrences is larger than `s.count(t)` |
| KeywordSentiment.CountPositiveIffContains | PythonProject2/Semantic_talk/NLP.py:25-26 | a term's count is positive exactly when the term occurs in the text |
| KeywordSentiment.ClassifySentiment | PythonProject2/Semantic_talk/NLP.py:23-33 | Hawkish iff hawkish > dovish, Dovish iff dovish > hawkish, Neutral iff equal; each score sums its terms' counts in the cleaned text |
| KeywordSentiment.TermsStartWithLetters | PythonProject2/Semantic_talk/NLP.py:10-11 | every hawkish and dovish term begins with a letter |
| KeywordSentiment.NoLettersIsNeutral | PythonProject2/Semantic_talk/NLP.py:23-33 | text with no ASCII letter classifies as ("Neutral", 0, 0) |
| KeywordSentiment.TwoWordTermAcrossWhitespace | PythonProject2/Semantic_talk/NLP.py:15-26 | a two-word term scores when the input separates its words by any whitespace run |
| KeywordSentiment.CutRatesAcrossWhitespace | PythonProject2/Semantic_talk/NLP.py:11-26 | "cut" and "rates" with a line break or other whitespace between them raise the dovish score |
| KeywordSentiment.TermsFound | PythonProject2/Semantic_talk/NLP.py:84-85 | the terms found keep the term-list order; a term is listed exactly when it is a case-sensitive substring of the raw text |
| ChunkedSentiment.Chunks | PythonProject2/Semantic_talk/NLP_advanced.py:42 | chunks concatenate to the text; each is non-empty and at most n long; all but the last are exactly n; their count is the least that can hold the text |
| ChunkedSentiment.ChunkCount | PythonProject2/Semantic_talk/NLP_advanced.py:42 | the number of chunks is ceil(len(text) / n) |
| ChunkedSentiment.SplitTextIntoChunks | PythonProject2/Semantic_talk/NLP_advanced.py:33-42 | a zero chunk size raises, a negative one gives no chunks, and a positive one gives chunks that glue back to the text, sized as above |
| ChunkedSentiment.AnalyzeChunks | PythonProject2/Semantic_talk/NLP_advanced.py:73-78 | one result per chunk, in chunk order, each FinBERT's verdict on that chunk |
| ChunkedSentiment.TallySentiments | PythonProject2/Semantic_talk/NLP_advanced.py:86-91 | each counter counts exactly the results with its label; every other label gives one warning, in order; counters and warnings together account for every result |
| ChunkedSentiment.AnalyzeDocument | PythonProject2/Semantic_talk/NLP_advanced.py:66-91 | the 512-character chunks glue back to the cleaned text; result i is FinBERT's verdict on chunk i; each counter counts exactly the results with its label, every other label gives one warning in order, and counters plus warnings equal the chunk count |
| DataFetcher.Padded | PythonProject2/fomc_app/modules/data_fetcher.py:47 | a zero-padded number has exactly the requested width, only digits, and reads back as the number |
| DataFetcher.FormatYmd | PythonProject2/fomc_app/modules/data_fetcher.py:47 | `%Y%m%d` is exactly eight digits |
| DataFetcher.ParseFormat | PythonProject2/fomc_app/modules/data_fetcher.py:47 | the eight digits read back as the same year, month and day |
| DataFetcher.MinutesUrl | PythonProject2/fomc_app/modules/data_fetcher.py:47-48 | a minutes URL starts with BASE_URL + "fomcminutes", ends with ".pdf", and has a fixed length |
| DataFetcher.UrlRoundTrip | PythonProject2/fomc_app/modules/data_fetcher.py:47-48 | the date can be read back from its minutes URL |
| DataFetcher.MinutesUrlInjective | PythonProject2/fomc_app/modules/data_fetcher.py:47-48 | two dates share a URL exactly when they are the same date |
| DataFetcher.GenerateMinutesUrls | PythonProject2/fomc_app/modules/data_fetcher.py:43-49 | one URL per date, in input order; two URLs coincide exactly when their dates do |
| DataFetcher.BaseUrlLiteral | PythonProject2/fomc_app/modules/data_fetcher.py:6 | the URL prefix is the source's `BASE_URL` literal |
| DataFetcher.WikiTables | PythonProject2/fomc_app/modules/data_fetcher.py:22 | exactly the tables whose class list holds "wikitable" are kept, in document order |
| DataFetcher.WikiTablesAppend | PythonProject2/fomc_app/modules/data_fetcher.py:22 | the table search distributes over concatenation, so order and repeats are those of the page |
| DataFetcher.AppendRowDates | PythonProject2/fomc_app/modules/data_fetcher.py:30-39 | the row loop appends the dates of the rows, in row order, to what was there |
| DataFetcher.GetMeetingDates | PythonProject2/fomc_app/modules/data_fetcher.py:12-40 | a non-200 status or no wikitable gives no dates; otherwise the dates are those of every table's body rows, in table order, then row order |
| DataFetcher.CollectTableDates | PythonProject2/fomc_app/modules/data_fetcher.py:27-39 | the table loop gives the body-row dates of each table, table after table |
| DataFetcher.RowDatesFromRows | PythonProject2/fomc_app/modules/data_fetcher.py:30-39 | every kept date was parsed from the first cell of a row that has cells |
| DataFetcher.RowsGiveDates | PythonProject2/fomc_app/modules/data_fetcher.py:30-39 | every row whose first cell parses contributes that date |
| DataFetcher.TableGivesDate | PythonProject2/fomc_app/modules/data_fetcher.py:29-39 | one table keeps a date exactly when one of its non-header rows has cells and its first cell parses to that date |
| DataFetcher.TableDatesCharacterized | PythonProject2/fomc_app/modules/data_fetcher.py:27-39 | a date is kept exactly when some non-header row with cells has a first cell that parses to it; header rows, rows without cells and unparseable rows contribute nothing |
| DataFetcher.NoNewlineInUrl | PythonProject2/fomc_app/modules/data_fetcher.py:48 | a minutes URL holds no newline |
| DataFetcher.SavedContentRoundTrip | PythonProject2/fomc_app/modules/data_fetcher.py:52-55 | the saved file has no trailing newline, and splitting it at newlines gives back the URLs in order |
| TraderDashboard.ChatbotResponse | PythonProject2/fomc_app/main.py:101-111 | the reply is one of five fixed strings; the first keyword present in the lower-cased query, in the order interest rate, inflation, stocks, next meeting, decides it; none present gives the help text |
| TraderDashboard.InterestRateInAnyCaseWins | PythonProject2/fomc_app/main.py:102-103 | "interest rate" in any letter case, anywhere in the query, gets the interest-rate answer whatever else the query holds |
| TraderDashboard.InitTab | PythonProject2/fomc_app/main.py:14-15 | a missing tab becomes "Meeting Summary"; an existing one is kept |
| TraderDashboard.LastPressed | PythonProject2/fomc_app/main.py:18-31 | finds the last pressed button in script order, or none |
| TraderDashboard.PressButtons | PythonProject2/fomc_app/main.py:18-31 | no button pressed keeps the tab; otherwise the tab becomes the label of the last pressed button in script order |
| TraderDashboard.SelectBranch | PythonProject2/fomc_app/main.py:58-132 | at most one section is chosen; one is chosen exactly when the tab is one of the five labels, and it is the section with that label |
| TraderDashboard.SelectBranchLabel | PythonProject2/fomc_app/main.py:58-132 | each section's label selects that section |
| TraderDashboard.RunScript | PythonProject2/fomc_app/main.py:14-132 | a run initialises the tab, applies the buttons and renders the matching section; the bot replies only in the chatbot section and only to a non-empty query |
| TraderDashboard.RunsKeepValidTab | PythonProject2/fomc_app/main.py:14-31 | from a fresh session or one the script set, the tab stays one of the five labels and a section is always rendered |
| TraderDashboard.SessionTab | PythonProject2/fomc_app/main.py:14-31 | `current_tab` persists across script runs in one session: unset before the first run, set by every run |
| TraderDashboard.SessionKeepsValidTab | PythonProject2/fomc_app/main.py:14-132 | across any number of runs in a fresh session, the tab stays one of the five labels, so every run renders a section |
| QuestionPages.HitTexts | PythonProject2/fomc_dashboard/pages/chatbot_assistant.py:120 | one text per retrieved hit, in order |
| QuestionPages.QuestionPromptParts | PythonProject2/fomc_dashboard/pages/chatbot_assistant.py:123 | the page prompt cuts at fixed offsets into "Context: ", the context, "\n\nQuestion: ", the question and the page's directive |
| QuestionPages.HandleQuestion | PythonProject2/fomc_dashboard/pages/chatbot_assistant.py:80-141 | no key: a warning, no helper, no retrieval. Empty question: nothing. Retrieval exception: "An error occurred: " plus the message. No hits: "No relevant data found", no completion. Otherwise one request with the joined context prompt, the page's instruction and temperature 0.7. A falsy reply gives the page's error; a reply is shown only when it is truthy |
| QuestionPages.AssistantPage | PythonProject2/fomc_dashboard/pages/chatbot_assistant.py:80-141 | the assistant page sends "Context: " + context + "\n\nQuestion: " + q + "\n\nAnswer concisely as a personal assistant." with its fixed instruction, temperature 0.7 and the default model; a falsy reply shows "Sorry, I could not retrieve a response. Please try again." |
| QuestionPages.AppPage | PythonProject2/fomc_dashboard/app.py:56-110 | the app page sends "Context: " + context + "\n\nQuestion: " + q + "\n\nAnswer concisely." with instruction "You are an assistant providing FOMC insights.", temperature 0.7; a falsy reply shows "Sorry, no response available. Please try again." |
| QuestionPages.ContextKeepsRetrievalOrder | PythonProject2/fomc_dashboard/pages/chatbot_assistant.py:120 | the context splits back at newlines into the retrieved texts, in retrieval order |

## Left out

- The library internals are not modelled: the embedding model, FAISS distance computation and ranking, FinBERT, PyPDF2, WordCloud and matplotlib. They appear as function parameters, because distances are floats and the libraries are not visible. The vector dimension of 384 is left out with the vectors.
- Pickle, `faiss.write_index` and `faiss.read_index` are reduced to the two `Disk` fields. A crash between writing the index file and writing the metadata file is not modelled: the model has no crashes.
- The import-time demo calls are not modelled as side effects, and neither are the printed messages or the token-usage print. The demo's contents are used only in the demo lemmas.
- HTTP, BeautifulSoup and `get_text(strip=True)` are not modelled. A page is a status and a list of tables; a row is the stripped texts of its `td` cells. `find_all("tr")` also finds rows of nested tables; the model treats a table's rows as given.
- `strptime("%B %d, %Y")` is a parameter, a partial parse to a date.
- DataFetcher.FormatYmd: requires years 1000 to 9999. Below 1000, `%Y` output depends on the platform.
- TraderDashboard.ChatbotResponse: `str.lower` is modelled on ASCII letters only. Unicode lowering, for example KELVIN SIGN to "k", is left out.
- TextCleaning.CleanLower: `str.lower` is applied only after every non-ASCII character has been removed, so ASCII lowering is exact there.
- Writing the URL file is reduced to its content string (`DataFetcher.SavedContent`).
- The ", " join that displays the terms found is Streamlit rendering and is not modelled.
- `OpenAIHelper.RetrieveContext` has no contract of its own. Its behaviour is stated by `OpenAIHelper.RetrieveContextLines` and `OpenAIHelper.GetResponse`.
- The retrieval function imported by the dashboard pages (`fomc_dashboard.modules.sentence_transformer`) is not part of this model. It is a parameter returning hits or an exception message.
- The `AzureOpenAIHelper(api_key)` constructor on the pages sits outside the `try`. The model records only that it was built; a constructor failure is not modelled.
- Streamlit layout, CSS, images, spinners and the HTML wrapper around the shown answer are not modelled.
- The chart and table pages are not modelled: `sep_projections.py`, `SEP.py`, `market_reactions.py`, `meeting_summary.py` and `interest_rate_trends.py`. They hold hardcoded data and plotting, with no logic of their own.
- `fomc_dashboard/app.py` stops in the middle of a string after the block modelled here.

## Findings

`query_faiss` maps every id FAISS returns through `metadata[idx]`. An exact FAISS index asked for more neighbours than it holds pads the ids with -1. In Python, `metadata[-1]` is the last paragraph, so the padding shows up as a spurious copy of that paragraph instead of an error or an omission. `retrieve_context` (line 124) has the same flaw: the padded line of the context is the last paragraph. The dashboard pages take their hits from a retrieval function outside this model, typed as the intended join would produce them.

| source | as written | input that shows it | evidently intended | confidence | as-written member | corrected member |
|---|---|---|---|---|---|---|
| PythonProject2/fomc_app/modules/sentence_transformer.py:62 | each returned id, including FAISS's -1 padding, is looked up as `metadata[idx]` | the module's own demo: four paragraphs stored, then a query with `top_k=5`; the fifth id is -1 and the last paragraph comes back twice | padding ids are skipped, giving four hits | high; not executed | VectorStore.DemoQueryRepeatsLastParagraph | VectorStore.QueryFaissSkippingPadding |
| PythonProject2/fomc_app/modules/sentence_transformer.py:124 | `retrieve_context` looks up `self.metadata[idx]` for every returned id, including the -1 padding | a helper over the four demo paragraphs asked for `top_k=5`: the fifth id is -1, and the fifth context line is the last paragraph again | padding ids are skipped, so only ranked paragraphs reach the prompt | high; not executed | OpenAIHelper.PaddingPutsLastParagraphInContext | OpenAIHelper.RetrieveContextSkippingPadding |

=== FILE: chunked_sentiment.dfy ===
/** The FinBERT page of `Semantic_talk/NLP_advanced.py`: clean the text, cut it into
    fixed-size chunks, classify each chunk, and tally the three expected labels.
    FinBERT itself is a function parameter. */
module ChunkedSentiment {
  import opened Wrappers
  import opened Text
  import opened TextCleaning

  /** The chunk size the page uses. */
  const PageChunkSize := 512

  /** `range(0, len(text), 0)` raises `ValueError`. */
  datatype ChunkError = ZeroChunkSize

  /** The first entry FinBERT returns for a chunk: `{"label": ..., "score": ...}`. */
  datatype ChunkResult = ChunkResult(sentiment: string, confidence: real)

  /** `sentiment_counts`: one counter per expected label. */
  datatype Tally = Tally(positive: nat, negative: nat, neutral: nat)

  /** `a <= b` survives multiplication by a positive `n`. */
  lemma MulMono(a: int, b: int, n: int)
    requires a <= b && n > 0
    ensures a * n <= b * n
  {
    assert (b - a) * n >= 0;
  }

  /** Integer division is determined by the bounds of its quotient. */
  lemma DivUnique(x: int, n: int, q: int)
    requires n > 0 && q * n <= x < q * n + n
    ensures x / n == q
  {
    var d := x / n;
    assert x == d * n + x % n && 0 <= x % n < n;
    if d < q {
      MulMono(d + 1, q, n);
      assert false;
    } else if d > q {
      MulMono(q + 1, d, n);
      assert false;
    }
  }

  /** `[text[i:i + n] for i in range(0, len(text), n)]` for a positive `n`: the
      chunks glue back to the text, each is non-empty and at most `n` long, all but
      the last are exactly `n` long, and there are just enough of them to hold it. */
  function Chunks(text: string, n: nat): (r: seq<string>)
    requires n > 0
    ensures Flatten(r) == text
    ensures |r| == 0 <==> |text| == 0
    ensures |r| > 0 ==> (|r| - 1) * n < |text| <= |r| * n
    ensures forall i :: 0 <= i < |r| ==> 0 < |r[i]| <= n
    ensures forall i :: 0 <= i < |r| - 1 ==> |r[i]| == n
    decreases |text|
  {
    if |text| == 0 then []
    else if |text| <= n then
      assert text + [] == text;
      [text]
    else
      var rest := Chunks(text[n..], n);
      var k := |rest|;
      assert (k + 1) * n == k * n + n;
      assert (k - 1) * n == k * n - n;
      assert text[..n] + text[n..] == text;
      [text[..n]] + rest
  }

  /** The number of chunks is `ceil(len(text) / n)`. */
  lemma ChunkCount(text: string, n: nat)
    requires n > 0
    ensures |Chunks(text, n)| == (|text| + n - 1) / n
  {
    var q := |Chunks(text, n)|;
    if q > 0 {
      assert (q - 1) * n == q * n - n;
    }
    DivUnique(|text| + n - 1, n, q);
  }

  /** `split_text_into_chunks(text, chunk_size)`: a zero size raises, a negative
      size gives an empty range and so no chunks. */
  function SplitTextIntoChunks(text: string, chunkSize: int): (r: Result<seq<string>, ChunkError>)
    ensures r.Failure? <==> chunkSize == 0
    ensures chunkSize < 0 ==> r == Success([])
    ensures chunkSize > 0 ==> r.Success? && Flatten(r.value) == text
    ensures chunkSize > 0 ==> |r.value| == (|text| + chunkSize - 1) / chunkSize
    ensures r.Success? ==> forall i :: 0 <= i < |r.value| ==> 0 < |r.value[i]| <= chunkSize
    ensures r.Success? ==> forall i :: 0 <= i < |r.value| - 1 ==> |r.value[i]| == chunkSize
  {
    if chunkSize == 0 then Failure(ZeroChunkSize)
    else if chunkSize < 0 then Success([])
    else
      ChunkCount(text, chunkSize);
      Success(Chunks(text, chunkSize))
  }

  /** The loop that fills `overall_sentiments`: one result per chunk, in chunk order. */
  method AnalyzeChunks(chunks: seq<string>, finbert: string -> ChunkResult) returns (results: seq<ChunkResult>)
    ensures |results| == |chunks|
    ensures forall i :: 0 <= i < |chunks| ==> results[i] == finbert(chunks[i])
  {
    results := [];
    var i := 0;
    while i < |chunks|
      invariant 0 <= i <= |chunks|
      invariant |results| == i
      invariant forall j :: 0 <= j < i ==> results[j] == finbert(chunks[j])
    {
      results := results + [finbert(chunks[i])];
      i := i + 1;
    }
  }

  /** How many results carry the label `wanted`. */
  function CountLabel(results: seq<ChunkResult>, wanted: string): nat
  {
    if |results| == 0 then 0
    else CountLabel(results[..|results| - 1], wanted) + (if results[|results| - 1].sentiment == wanted then 1 else 0)
  }

  /** The labels the page tallies. */
  predicate Expected(sentiment: string)
  {
    sentiment == "POSITIVE" || sentiment == "NEGATIVE" || sentiment == "NEUTRAL"
  }

  /** The warnings `st.warning` shows, one per result with another label, in order. */
  function Warnings(results: seq<ChunkResult>): seq<string>
  {
    if |results| == 0 then []
    else
      var last := results[|results| - 1].sentiment;
      Warnings(results[..|results| - 1]) + (if Expected(last) then [] else ["Unexpected sentiment label: " + last])
  }

  /** The tallying loop: each counter counts exactly the results carrying its label;
      every other label produces a warning instead. */
  method TallySentiments(results: seq<ChunkResult>) returns (tally: Tally, warnings: seq<string>)
    ensures tally.positive == CountLabel(results, "POSITIVE")
    ensures tally.negative == CountLabel(results, "NEGATIVE")
    ensures tally.neutral == CountLabel(results, "NEUTRAL")
    ensures warnings == Warnings(results)
    ensures tally.positive + tally.negative + tally.neutral + |warnings| == |results|
  {
    tally := Tally(0, 0, 0);
    warnings := [];
    var i := 0;
    while i < |results|
      invariant 0 <= i <= |results|
      invariant tally.positive == CountLabel(results[..i], "POSITIVE")
      invariant tally.negative == CountLabel(results[..i], "NEGATIVE")
      invariant tally.neutral == CountLabel(results[..i], "NEUTRAL")
      invariant warnings == Warnings(results[..i])
      invariant tally.positive + tally.negative + tally.neutral + |warnings| == i
    {
      assert results[..i + 1][..i] == results[..i];
      var sentiment := results[i].sentiment;
      if sentiment == "POSITIVE" {
        tally := tally.(positive := tally.positive + 1);
      } else if sentiment == "NEGATIVE" {
        tally := tally.(negative := tally.negative + 1);
      } else if sentiment == "NEUTRAL" {
        tally := tally.(neutral := tally.neutral + 1);
      } else {
        warnings := warnings + ["Unexpected sentiment label: " + sentiment];
      }
      i := i + 1;
    }
    assert results[..|results|] == results;
  }

  /** The whole page for one uploaded text: clean, chunk by 512, classify, tally.
      The chunks glue back to the cleaned text, each chunk gets FinBERT's verdict, and
      every verdict is either counted under its label or warned about. */
  method AnalyzeDocument(text: string, finbert: string -> ChunkResult)
    returns (chunks: seq<string>, results: seq<ChunkResult>, tally: Tally, warnings: seq<string>)
    ensures Flatten(chunks) == CleanKeepCase(text)
    ensures |chunks| == (|CleanKeepCase(text)| + PageChunkSize - 1) / PageChunkSize
    ensures |results| == |chunks|
    ensures forall i :: 0 <= i < |chunks| ==> results[i] == finbert(chunks[i])
    ensures tally.positive == CountLabel(results, "POSITIVE")
    ensures tally.negative == CountLabel(results, "NEGATIVE")
    ensures tally.neutral == CountLabel(results, "NEUTRAL")
    ensures warnings == Warnings(results)
    ensures tally.positive + tally.negative + tally.neutral + |warnings| == |chunks|
  {
    var cleaned := CleanKeepCase(text);
    chunks := SplitTextIntoChunks(cleaned, PageChunkSize).value;
    results := AnalyzeChunks(chunks, finbert);
    tally, warnings := TallySentiments(results);
  }
}

=== FILE: data_fetcher.dfy ===
/** `fomc_app/modules/data_fetcher.py`: the filter that turns the rows of the
    Wikipedia tables into meeting dates, the minutes URL for each date, and the
    content of the saved URL file. HTTP, HTML parsing and `strptime` are outside the
    model: the page arrives as a status and a list of tables, and the date parser is
    a function parameter. */
module DataFetcher {
  import opened Wrappers
  import opened Text

  /** `BASE_URL`: the directory of the minutes files. It is written as the site
      and the directory so that facts about its characters stay within the
      solver's reach; `BaseUrlLiteral` states that it is the one literal. */
  const BaseUrl := "https://www.federalreserve.gov/" + "monetarypolicy/files/"

  /** `BaseUrl` is the literal `BASE_URL` of the source. */
  lemma BaseUrlLiteral()
    ensures BaseUrl == "https://www.federalreserve.gov/monetarypolicy/files/"
  {
  }

  /** Everything of a minutes URL before the date. */
  const UrlPrefix := BaseUrl + "fomcminutes"
  const UrlSuffix := ".pdf"

  /** A `datetime` reduced to what `strftime("%Y%m%d")` prints. */
  datatype Date = Date(year: int, month: int, day: int)

  predicate IsLeapYear(year: int)
  {
    year % 4 == 0 && (year % 100 != 0 || year % 400 == 0)
  }

  function DaysInMonth(year: int, month: int): int
    requires 1 <= month <= 12
  {
    if month == 2 then (if IsLeapYear(year) then 29 else 28)
    else if month == 4 || month == 6 || month == 9 || month == 11 then 30
    else 31
  }

  /** A date `datetime` accepts whose year `%Y` prints with four digits. */
  predicate Formattable(d: Date)
  {
    1000 <= d.year <= 9999 && 1 <= d.month <= 12 && 1 <= d.day <= DaysInMonth(d.year, d.month)
  }

  predicate IsDigit(c: char)
  {
    '0' <= c <= '9'
  }

  function DigitChar(n: int): (c: char)
    requires 0 <= n <= 9
    ensures IsDigit(c)
  {
    ('0' as int + n) as char
  }

  function DigitValue(c: char): int
  {
    c as int - '0' as int
  }

  /** The value of a string of decimal digits. */
  function DecimalValue(s: string): int
  {
    if |s| == 0 then 0 else DecimalValue(s[..|s| - 1]) * 10 + DigitValue(s[|s| - 1])
  }

  /** `n` printed with exactly `width` digits, zero-padded on the left. */
  function Padded(n: nat, width: nat): (r: string)
    requires n < Pow10(width)
    ensures |r| == width
    ensures forall i :: 0 <= i < |r| ==> IsDigit(r[i])
    ensures DecimalValue(r) == n
  {
    if width == 0 then ""
    else
      var r := Padded(n / 10, width - 1) + [DigitChar(n % 10)];
      assert r[..|r| - 1] == Padded(n / 10, width - 1);
      r
  }

  function Pow10(k: nat): nat
  {
    if k == 0 then 1 else 10 * Pow10(k - 1)
  }

  /** `date.strftime("%Y%m%d")`: eight digits, month and day zero-padded. */
  function FormatYmd(d: Date): (r: string)
    requires Formattable(d)
    ensures |r| == 8
    ensures forall i :: 0 <= i < |r| ==> IsDigit(r[i])
  {
    assert Pow10(4) == 10000;
    assert Pow10(2) == 100;
    Padded(d.year, 4) + Padded(d.month, 2) + Padded(d.day, 2)
  }

  /** The date an eight-digit `YYYYMMDD` string names, if it is one. */
  function ParseYmd(s: string): Option<Date>
  {
    if |s| == 8 && forall i :: 0 <= i < 8 ==> IsDigit(s[i]) then
      Some(Date(DecimalValue(s[..4]), DecimalValue(s[4..6]), DecimalValue(s[6..])))
    else None
  }

  /** Reading the eight digits back gives the date that was printed. */
  lemma ParseFormat(d: Date)
    requires Formattable(d)
    ensures ParseYmd(FormatYmd(d)) == Some(d)
  {
    assert Pow10(4) == 10000;
    assert Pow10(2) == 100;
    var y := Padded(d.year, 4);
    var m := Padded(d.month, 2);
    var s := FormatYmd(d);
    assert s[..4] == y;
    assert s[4..6] == m;
    assert s[6..] == Padded(d.day, 2);
  }

  /** `f"{BASE_URL}fomcminutes{formatted_date}.pdf"`. */
  function MinutesUrl(d: Date): (u: string)
    requires Formattable(d)
    ensures |u| == |UrlPrefix| + 8 + |UrlSuffix|
    ensures IsPrefix(UrlPrefix, u)
    ensures u[|u| - |UrlSuffix|..] == UrlSuffix
  {
    var u := UrlPrefix + FormatYmd(d) + UrlSuffix;
    assert u[..|UrlPrefix|] == UrlPrefix;
    u
  }

  /** The date a minutes URL names, if it has the minutes URL shape. */
  function DateOfUrl(u: string): Option<Date>
  {
    if |u| == |UrlPrefix| + 8 + |UrlSuffix| && IsPrefix(UrlPrefix, u) && u[|UrlPrefix| + 8..] == UrlSuffix
    then ParseYmd(u[|UrlPrefix|..|UrlPrefix| + 8])
    else None
  }

  /** The date can be read back from its URL. */
  lemma UrlRoundTrip(d: Date)
    requires Formattable(d)
    ensures DateOfUrl(MinutesUrl(d)) == Some(d)
  {
    var u := MinutesUrl(d);
    assert u[|UrlPrefix|..|UrlPrefix| + 8] == FormatYmd(d);
    ParseFormat(d);
  }

  /** Distinct dates give distinct URLs: the date segment has a fixed width. */
  lemma MinutesUrlInjective(d1: Date, d2: Date)
    requires Formattable(d1) && Formattable(d2)
    ensures MinutesUrl(d1) == MinutesUrl(d2) <==> d1 == d2
  {
    UrlRoundTrip(d1);
    UrlRoundTrip(d2);
  }

  /** `generate_fomc_minutes_urls(meeting_dates)`: one URL per date, in input order,
      and two URLs coincide only when their dates do. */
  method GenerateMinutesUrls(dates: seq<Date>) returns (urls: seq<string>)
    requires forall i :: 0 <= i < |dates| ==> Formattable(dates[i])
    ensures |urls| == |dates|
    ensures forall i :: 0 <= i < |dates| ==> urls[i] == MinutesUrl(dates[i])
    ensures forall i, j :: 0 <= i < |dates| && 0 <= j < |dates| ==> (urls[i] == urls[j] <==> dates[i] == dates[j])
  {
    urls := [];
    var i := 0;
    while i < |dates|
      invariant 0 <= i <= |dates|
      invariant |urls| == i
      invariant forall j :: 0 <= j < i ==> urls[j] == MinutesUrl(dates[j])
    {
      urls := urls + [MinutesUrl(dates[i])];
      i := i + 1;
    }
    forall i, j | 0 <= i < |dates| && 0 <= j < |dates|
      ensures urls[i] == urls[j] <==> dates[i] == dates[j]
    {
      MinutesUrlInjective(dates[i], dates[j]);
    }
  }

  /** A `<tr>`: the text of each of its `<td>` cells, already stripped. */
  datatype Row = Row(cells: seq<string>)

  /** A `<table>`: its class list and its rows. */
  datatype Table = Table(classes: seq<string>, rows: seq<Row>)

  /** The answer to the page request. */
  datatype Page = Page(status: int, tables: seq<Table>)

  /** `soup.find_all("table", {"class": "wikitable"})`: the wikitables, in document
      order. */
  function WikiTables(tables: seq<Table>): (r: seq<Table>)
    ensures IsSublist(r, tables)
    ensures forall i :: 0 <= i < |r| ==> "wikitable" in r[i].classes
    ensures forall i :: 0 <= i < |r| ==> r[i] in tables
    ensures forall i :: 0 <= i < |tables| && "wikitable" in tables[i].classes ==> tables[i] in r
  {
    if |tables| == 0 then []
    else if "wikitable" in tables[0].classes then [tables[0]] + WikiTables(tables[1..])
    else WikiTables(tables[1..])
  }

  /** The search goes table by table: the wikitables of a page in two parts are those
      of the first part followed by those of the second. With the single-table
      case of the definition this fixes the result, duplicates included. */
  lemma {:induction false} WikiTablesAppend(a: seq<Table>, b: seq<Table>)
    ensures WikiTables(a + b) == WikiTables(a) + WikiTables(b)
    decreases |a|
  {
    if |a| == 0 {
      assert a + b == b;
    } else {
      assert (a + b)[0] == a[0] && (a + b)[1..] == a[1..] + b;
      WikiTablesAppend(a[1..], b);
    }
  }

  /** `table.find_all("tr")[1:]`. */
  function BodyRows(t: Table): seq<Row>
  {
    if |t.rows| == 0 then [] else t.rows[1..]
  }

  /** What one row contributes: nothing without cells or when its first cell does
      not parse, else the parsed date. */
  function RowDate(row: Row, parse: string -> Option<Date>): seq<Date>
  {
    if |row.cells| == 0 then []
    else match parse(row.cells[0])
      case None => []
      case Some(d) => [d]
  }

  /** The dates of some rows, in row order. */
  function RowDates(rows: seq<Row>, parse: string -> Option<Date>): seq<Date>
  {
    if |rows| == 0 then []
    else RowDates(rows[..|rows| - 1], parse) + RowDate(rows[|rows| - 1], parse)
  }

  /** The dates of some tables: table order, then row order, header rows skipped. */
  function TableDates(tables: seq<Table>, parse: string -> Option<Date>): seq<Date>
  {
    if |tables| == 0 then []
    else TableDates(tables[..|tables| - 1], parse) + RowDates(BodyRows(tables[|tables| - 1]), parse)
  }

  /** The inner loop over the body rows of one table. */
  method AppendRowDates(dates: seq<Date>, rows: seq<Row>, parse: string -> Option<Date>) returns (out: seq<Date>)
    ensures out == dates + RowDates(rows, parse)
  {
    out := dates;
    var r := 0;
    while r < |rows|
      invariant 0 <= r <= |rows|
      invariant out == dates + RowDates(rows[..r], parse)
    {
      var row := rows[r];
      if |row.cells| > 0 {
        var dateText := row.cells[0];
        match parse(dateText)
        case Some(d) => out := out + [d];
        case None =>
      }
      assert rows[..r + 1][..r] == rows[..r];
      r := r + 1;
    }
    assert rows[..|rows|] == rows;
  }

  /** `get_fomc_meeting_dates(wiki_url)` once the page has been fetched: a failed
      fetch or a page without wikitables gives no dates; otherwise the loop over
      tables and rows. */
  method GetMeetingDates(page: Page, parse: string -> Option<Date>) returns (dates: seq<Date>)
    ensures page.status != 200 ==> dates == []
    ensures WikiTables(page.tables) == [] ==> dates == []
    ensures page.status == 200 ==> dates == TableDates(WikiTables(page.tables), parse)
  {
    dates := [];
    if page.status == 200 {
      dates := CollectTableDates(WikiTables(page.tables), parse);
    }
  }

  /** The outer loop of `get_fomc_meeting_dates`: the dates of every table's body
      rows, table after table. */
  method CollectTableDates(tables: seq<Table>, parse: string -> Option<Date>) returns (dates: seq<Date>)
    ensures dates == TableDates(tables, parse)
  {
    dates := [];
    var t := 0;
    while t < |tables|
      invariant 0 <= t <= |tables|
      invariant dates == TableDates(tables[..t], parse)
    {
      dates := AppendRowDates(dates, BodyRows(tables[t]), parse);
      assert tables[..t + 1][..t] == tables[..t];
      t := t + 1;
    }
    assert tables[..|tables|] == tables;
  }

  /** Every date the row filter keeps was parsed from the first cell of a row that
      has cells and is not its table's header row. */
  lemma {:induction false} RowDatesFromRows(rows: seq<Row>, parse: string -> Option<Date>, d: Date)
    requires d in RowDates(rows, parse)
    ensures exists j :: 0 <= j < |rows| && |rows[j].cells| > 0 && parse(rows[j].cells[0]) == Some(d)
    decreases |rows|
  {
    var init := rows[..|rows| - 1];
    if d in RowDates(init, parse) {
      RowDatesFromRows(init, parse, d);
      var j :| 0 <= j < |init| && |init[j].cells| > 0 && parse(init[j].cells[0]) == Some(d);
      assert rows[j] == init[j];
    } else {
      assert |rows[|rows| - 1].cells| > 0;
    }
  }

  /** ... and, conversely, every such row contributes its date. */
  lemma {:induction false} RowsGiveDates(rows: seq<Row>, parse: string -> Option<Date>, j: int)
    requires 0 <= j < |rows| && |rows[j].cells| > 0 && parse(rows[j].cells[0]).Some?
    ensures parse(rows[j].cells[0]).value in RowDates(rows, parse)
    decreases |rows|
  {
    if j < |rows| - 1 {
      var init := rows[..|rows| - 1];
      assert init[j] == rows[j];
      RowsGiveDates(init, parse, j);
    }
  }

  /** A date is kept exactly when some non-header row of some table has cells and its
      first cell parses to that date. */
  lemma {:induction false} TableDatesCharacterized(tables: seq<Table>, parse: string -> Option<Date>, d: Date)
    ensures d in TableDates(tables, parse) <==>
      exists t, j :: 0 <= t < |tables| && 1 <= j < |tables[t].rows| &&
        |tables[t].rows[j].cells| > 0 && parse(tables[t].rows[j].cells[0]) == Some(d)
    decreases |tables|
  {
    if |tables| > 0 {
      var init := tables[..|tables| - 1];
      var last := tables[|tables| - 1];
      TableDatesCharacterized(init, parse, d);
      TableGivesDate(last, parse, d);
      assert TableDates(tables, parse) == TableDates(init, parse) + RowDates(BodyRows(last), parse);
      if d in TableDates(tables, parse) {
        if d in TableDates(init, parse) {
          var t, j :| 0 <= t < |init| && 1 <= j < |init[t].rows| &&
            |init[t].rows[j].cells| > 0 && parse(init[t].rows[j].cells[0]) == Some(d);
          assert tables[t] == init[t];
        } else {
          var j :| 1 <= j < |last.rows| && |last.rows[j].cells| > 0 && parse(last.rows[j].cells[0]) == Some(d);
          assert tables[|tables| - 1] == last;
        }
      }
      if exists t, j :: 0 <= t < |tables| && 1 <= j < |tables[t].rows| &&
          |tables[t].rows[j].cells| > 0 && parse(tables[t].rows[j].cells[0]) == Some(d) {
        var t, j :| 0 <= t < |tables| && 1 <= j < |tables[t].rows| &&
          |tables[t].rows[j].cells| > 0 && parse(tables[t].rows[j].cells[0]) == Some(d);
        if t < |tables| - 1 {
          assert init[t] == tables[t];
        }
      }
    }
  }

  /** One table keeps a date exactly when one of its non-header rows has cells and
      its first cell parses to that date. */
  lemma TableGivesDate(table: Table, parse: string -> Option<Date>, d: Date)
    ensures d in RowDates(BodyRows(table), parse) <==>
      exists j :: 1 <= j < |table.rows| && |table.rows[j].cells| > 0 && parse(table.rows[j].cells[0]) == Some(d)
  {
    var body := BodyRows(table);
    if d in RowDates(body, parse) {
      RowDatesFromRows(body, parse, d);
      var j :| 0 <= j < |body| && |body[j].cells| > 0 && parse(body[j].cells[0]) == Some(d);
      assert |table.rows| > 0 && body == table.rows[1..];
      assert table.rows[j + 1] == body[j];
    }
    if exists j :: 1 <= j < |table.rows| && |table.rows[j].cells| > 0 && parse(table.rows[j].cells[0]) == Some(d) {
      var j :| 1 <= j < |table.rows| && |table.rows[j].cells| > 0 && parse(table.rows[j].cells[0]) == Some(d);
      assert body[j - 1] == table.rows[j];
      RowsGiveDates(body, parse, j - 1);
    }
  }

  /** `"\n".join(urls)`: what `save_urls_to_file` writes. */
  function SavedContent(urls: seq<string>): string
  {
    Join(urls, "\n")
  }

  /** A minutes URL holds no newline. */
  lemma NoNewlineInUrl(d: Date)
    requires Formattable(d)
    ensures '\n' !in MinutesUrl(d)
  {
    var u := MinutesUrl(d);
    assert u == UrlPrefix + FormatYmd(d) + UrlSuffix;
    assert '\n' !in UrlPrefix;
    assert forall i :: 0 <= i < |u| ==> u[i] != '\n' by {
      forall i | 0 <= i < |u| ensures u[i] != '\n' {
        if i < |UrlPrefix| {
          assert u[i] == UrlPrefix[i];
        } else if i < |UrlPrefix| + 8 {
          assert u[i] == FormatYmd(d)[i - |UrlPrefix|];
        } else {
          assert u[i] == UrlSuffix[i - |UrlPrefix| - 8];
        }
      }
    }
  }

  /** The saved file ends with the last URL, with no newline after it, and splitting
      it at newlines gives back the URLs in order. */
  lemma SavedContentRoundTrip(dates: seq<Date>)
    requires |dates| > 0
    requires forall i :: 0 <= i < |dates| ==> Formattable(dates[i])
    ensures var urls := seq(|dates|, i requires 0 <= i < |dates| => MinutesUrl(dates[i]));
      var content := SavedContent(urls);
      && Split(content, '\n') == urls
      && content[|content| - 1] != '\n'
  {
    var urls := seq(|dates|, i requires 0 <= i < |dates| => MinutesUrl(dates[i]));
    forall i | 0 <= i < |urls| ensures '\n' !in urls[i] {
      NoNewlineInUrl(dates[i]);
    }
    SplitJoin(urls, '\n');
    var content := SavedContent(urls);
    var last := urls[|urls| - 1];
    if |urls| == 1 {
      assert content == last;
    } else {
      assert urls == urls[..|urls| - 1] + [last];
      JoinSnoc(urls[..|urls| - 1], last, "\n");
      assert content[|content| - 1] == last[|last| - 1];
    }
    assert last[|last| - 1] == UrlSuffix[|UrlSuffix| - 1];
  }
}

=== FILE: keyword_sentiment.dfy ===
/** The keyword classifier of `Semantic_talk/NLP.py`: count the hawkish and the
    dovish terms in the cleaned text, compare the totals, and list the terms that
    occur in the raw text. */
module KeywordSentiment {
  import opened Text
  import opened TextCleaning

  const HawkishTerms: seq<string> := ["tighten", "inflation", "hike", "reduce liquidity", "restrictive"]
  const DovishTerms: seq<string> := ["accommodative", "stimulus", "easing", "cut rates", "lower interest"]

  datatype Label = Hawkish | Dovish | Neutral

  /** What `classify_sentiment` returns: the label and both scores. */
  datatype Classification = Classification(tone: Label, hawkish: nat, dovish: nat)

  /** `s.count(t)`: occurrences of a non-empty `t`, found left to right without overlap. */
  function CountOccurrences(s: string, t: string): (n: nat)
    requires |t| > 0
    ensures n * |t| <= |s|
    decreases |s|
  {
    if |s| < |t| then 0
    else if IsPrefix(t, s) then 1 + CountOccurrences(s[|t|..], t)
    else CountOccurrences(s[1..], t)
  }

  /** `s.count(t)` is positive exactly when `t in s`. */
  lemma {:induction false} CountPositiveIffContains(s: string, t: string)
    requires |t| > 0
    ensures CountOccurrences(s, t) > 0 <==> Contains(s, t)
    decreases |s|
  {
    if |s| > 0 {
      CountPositiveIffContains(s[1..], t);
    }
  }

  /** `ps` lists positions, in increasing order, where `t` occurs in `s` with no
      two occurrences overlapping. */
  predicate DisjointOccurrences(s: string, t: string, ps: seq<int>)
  {
    && (forall k :: 0 <= k < |ps| ==> OccursAt(s, t, ps[k]))
    && (forall j, k :: 0 <= j < k < |ps| ==> ps[j] + |t| <= ps[k])
  }

  /** Every position moved by `d`. */
  function Shift(ps: seq<int>, d: int): (r: seq<int>)
    ensures |r| == |ps|
    ensures forall k :: 0 <= k < |ps| ==> r[k] == ps[k] + d
  {
    seq(|ps|, k requires 0 <= k < |ps| => ps[k] + d)
  }

  /** An occurrence in a suffix is an occurrence in the whole string, `d` further on. */
  lemma OccursInSuffix(s: string, t: string, p: int, d: int)
    requires 0 <= d <= |s| && 0 <= p
    ensures OccursAt(s[d..], t, p) <==> OccursAt(s, t, p + d)
  {
    if p + |t| <= |s| - d {
      assert s[d..][p..p + |t|] == s[p + d..p + d + |t|];
    }
  }

  /** `s.count(t)` is achieved: there are that many non-overlapping occurrences. */
  lemma {:induction false} CountHasWitness(s: string, t: string) returns (ps: seq<int>)
    requires |t| > 0
    ensures |ps| == CountOccurrences(s, t)
    ensures DisjointOccurrences(s, t, ps)
    decreases |s|
  {
    if |s| < |t| {
      ps := [];
    } else if IsPrefix(t, s) {
      var rest := CountHasWitness(s[|t|..], t);
      var moved := ShiftIntoWhole(s, t, rest, |t|);
      ps := [0] + moved;
      assert OccursAt(s, t, 0);
      assert forall k :: 0 <= k < |moved| ==> |t| <= moved[k];
    } else {
      var rest := CountHasWitness(s[1..], t);
      ps := ShiftIntoWhole(s, t, rest, 1);
    }
  }

  /** Occurrences in the suffix from `d` are occurrences in the whole string, `d`
      further on, and stay disjoint. */
  lemma ShiftIntoWhole(s: string, t: string, rest: seq<int>, d: int) returns (moved: seq<int>)
    requires 0 <= d <= |s|
    requires DisjointOccurrences(s[d..], t, rest)
    ensures moved == Shift(rest, d)
    ensures DisjointOccurrences(s, t, moved)
    ensures forall k :: 0 <= k < |moved| ==> d <= moved[k]
  {
    moved := Shift(rest, d);
    forall k | 0 <= k < |rest|
      ensures OccursAt(s, t, moved[k])
    {
      OccursInSuffix(s, t, rest[k], d);
    }
  }

  /** `s.count(t)` cannot be beaten: no set of non-overlapping occurrences is larger,
      because taking the leftmost occurrence first never loses one. */
  lemma {:induction false} CountIsMaximal(s: string, t: string, ps: seq<int>)
    requires |t| > 0
    requires DisjointOccurrences(s, t, ps)
    ensures |ps| <= CountOccurrences(s, t)
    decreases |s|
  {
    if |ps| > 0 {
      assert OccursAt(s, t, ps[0]);
      if IsPrefix(t, s) {
        var rest := Shift(ps[1..], -|t|);
        forall k | 0 <= k < |rest|
          ensures OccursAt(s[|t|..], t, rest[k])
        {
          assert ps[0] + |t| <= ps[k + 1];
          OccursInSuffix(s, t, rest[k], |t|);
        }
        CountIsMaximal(s[|t|..], t, rest);
      } else {
        assert ps[0] != 0;
        var rest := Shift(ps, -1);
        forall k | 0 <= k < |rest|
          ensures OccursAt(s[1..], t, rest[k])
        {
          if k > 0 {
            assert ps[0] + |t| <= ps[k];
          }
          OccursInSuffix(s, t, rest[k], 1);
        }
        CountIsMaximal(s[1..], t, rest);
      }
    }
  }

  /** Every term of both lists is non-empty. */
  predicate NonEmptyTerms(terms: seq<string>)
  {
    forall i :: 0 <= i < |terms| ==> |terms[i]| > 0
  }

  /** `sum(s.count(term) for term in terms)`. */
  function Score(s: string, terms: seq<string>): nat
    requires NonEmptyTerms(terms)
  {
    if |terms| == 0 then 0 else CountOccurrences(s, terms[0]) + Score(s, terms[1..])
  }

  /** `classify_sentiment(text)`. */
  function ClassifySentiment(text: string): (r: Classification)
    ensures r.tone == Hawkish <==> r.hawkish > r.dovish
    ensures r.tone == Dovish <==> r.dovish > r.hawkish
    ensures r.tone == Neutral <==> r.hawkish == r.dovish
    ensures r.hawkish == Score(CleanLower(text), HawkishTerms)
    ensures r.dovish == Score(CleanLower(text), DovishTerms)
  {
    var cleaned := CleanLower(text);
    var h := Score(cleaned, HawkishTerms);
    var d := Score(cleaned, DovishTerms);
    if h > d then Classification(Hawkish, h, d)
    else if d > h then Classification(Dovish, h, d)
    else Classification(Neutral, h, d)
  }

  /** A term that starts with a letter cannot occur in a string without letters. */
  lemma TermAbsentWithoutLetters(s: string, t: string)
    requires Letters(s) == ""
    requires |t| > 0 && IsAsciiLetter(t[0])
    ensures CountOccurrences(s, t) == 0
  {
    NoLettersAnywhere(s);
    CountPositiveIffContains(s, t);
    ContainsAt(s, t);
  }

  /** Terms that all start with a letter score zero in a string without letters. */
  lemma {:induction false} ScoreZeroWithoutLetters(s: string, terms: seq<string>)
    requires Letters(s) == ""
    requires NonEmptyTerms(terms)
    requires forall i :: 0 <= i < |terms| ==> IsAsciiLetter(terms[i][0])
    ensures Score(s, terms) == 0
    decreases |terms|
  {
    if |terms| > 0 {
      TermAbsentWithoutLetters(s, terms[0]);
      ScoreZeroWithoutLetters(s, terms[1..]);
    }
  }

  /** Every hawkish and every dovish term starts with a letter. */
  lemma TermsStartWithLetters()
    ensures forall i :: 0 <= i < |HawkishTerms| ==> IsAsciiLetter(HawkishTerms[i][0])
    ensures forall i :: 0 <= i < |DovishTerms| ==> IsAsciiLetter(DovishTerms[i][0])
  {
    assert HawkishTerms[0][0] == 't' && HawkishTerms[1][0] == 'i' && HawkishTerms[2][0] == 'h';
    assert HawkishTerms[3][0] == 'r' && HawkishTerms[4][0] == 'r';
    assert DovishTerms[0][0] == 'a' && DovishTerms[1][0] == 's' && DovishTerms[2][0] == 'e';
    assert DovishTerms[3][0] == 'c' && DovishTerms[4][0] == 'l';
  }

  /** Text with no ASCII letter classifies as `("Neutral", 0, 0)`. */
  lemma NoLettersIsNeutral(text: string)
    requires Letters(text) == ""
    ensures ClassifySentiment(text) == Classification(Neutral, 0, 0)
  {
    var cleaned := CleanLower(text);
    CleanLowerLetters(text);
    assert AsciiLower("") == "";
    TermsStartWithLetters();
    ScoreZeroWithoutLetters(cleaned, HawkishTerms);
    ScoreZeroWithoutLetters(cleaned, DovishTerms);
  }

  /** Each term's count is part of its list's score. */
  lemma {:induction false} ScoreCountsTerm(s: string, terms: seq<string>, k: int)
    requires NonEmptyTerms(terms) && 0 <= k < |terms|
    ensures CountOccurrences(s, terms[k]) <= Score(s, terms)
    decreases |terms|
  {
    if k > 0 {
      ScoreCountsTerm(s, terms[1..], k - 1);
    }
  }

  /** Lowering leaves lower-case letters alone. */
  lemma LowerWord(u: string)
    requires forall i :: 0 <= i < |u| ==> 'a' <= u[i] <= 'z'
    ensures AsciiLower(u) == u
  {
    AsciiLowerAt(u);
  }

  /** A two-word term still scores when the input separates its words by any
      whitespace run (a line break, a tab, several spaces), because `clean_text`
      turns that run into the one space the term holds. */
  lemma TwoWordTermAcrossWhitespace(terms: seq<string>, k: int, u: string, v: string, a: string, w: string, b: string)
    requires NonEmptyTerms(terms) && 0 <= k < |terms|
    requires terms[k] == u + " " + v
    requires |u| > 0 && forall i :: 0 <= i < |u| ==> 'a' <= u[i] <= 'z'
    requires |v| > 0 && forall i :: 0 <= i < |v| ==> 'a' <= v[i] <= 'z'
    requires |w| > 0 && forall i :: 0 <= i < |w| ==> IsSpace(w[i])
    ensures Score(CleanLower(a + u + w + v + b), terms) > 0
  {
    var cleaned := CleanLower(a + u + w + v + b);
    CleanedPhrase(u, v, a, w, b);
    ContainsMiddle(CleanLower(a), u + " " + v, CleanLower(b));
    CountPositiveIffContains(cleaned, terms[k]);
    ScoreCountsTerm(cleaned, terms, k);
  }

  /** Lower-case words around a whitespace run clean to the words and one space. */
  lemma CleanedPhrase(u: string, v: string, a: string, w: string, b: string)
    requires |u| > 0 && forall i :: 0 <= i < |u| ==> 'a' <= u[i] <= 'z'
    requires |v| > 0 && forall i :: 0 <= i < |v| ==> 'a' <= v[i] <= 'z'
    requires |w| > 0 && forall i :: 0 <= i < |w| ==> IsSpace(w[i])
    ensures CleanLower(a + u + w + v + b) == CleanLower(a) + (u + " " + v) + CleanLower(b)
  {
    CleanLowerKeepsWordBoundary(a, u, w, v, b);
    LowerWord(u);
    LowerWord(v);
    Regroup(CleanLower(a), u, v, CleanLower(b));
  }

  /** `x + u + " " + v + y` read with the phrase grouped. */
  lemma Regroup(x: string, u: string, v: string, y: string)
    ensures x + u + " " + v + y == x + (u + " " + v) + y
  {
  }

  /** "cut" and "rates" on either side of a line break still count as the dovish
      term "cut rates". */
  lemma CutRatesAcrossWhitespace(a: string, w: string, b: string)
    requires |w| > 0 && forall i :: 0 <= i < |w| ==> IsSpace(w[i])
    ensures ClassifySentiment(a + "cut" + w + "rates" + b).dovish > 0
  {
    assert DovishTerms[3] == "cut" + " " + "rates";
    TwoWordTermAcrossWhitespace(DovishTerms, 3, "cut", "rates", a, w, b);
  }

  /** `[term for term in terms if term in text]`: the terms found in the raw text. */
  function TermsFound(terms: seq<string>, text: string): (r: seq<string>)
    ensures IsSublist(r, terms)
    ensures forall t :: t in r <==> t in terms && Contains(text, t)
    decreases |terms|
  {
    if |terms| == 0 then []
    else if Contains(text, terms[0]) then [terms[0]] + TermsFound(terms[1..], text)
    else TermsFound(terms[1..], text)
  }
}

=== FILE: openai_helper.dfy ===
/** The chat side of the assistant: `AzureOpenAIHelper` in
    `fomc_app/modules/sentence_transformer.py` (context retrieval from the snapshot it
    loads at construction, prompt and message construction, failure handling), and
    the request shape of the thinner helper the dashboard pages use. The completion
    service is a function parameter from the request to the reply text, `None` when
    the call raises or returns no content. */
module OpenAIHelper {
  import opened Wrappers
  import opened Text
  import opened VectorStore

  /** The model used when the caller names none. */
  const DefaultModel := "gpt-4o-mini"

  datatype Role = System | User

  /** One entry of the `messages` list: `{"role": ..., "content": ...}`. */
  datatype Message = Message(role: Role, content: string)

  /** The arguments of `client.chat.completions.create`. */
  datatype ChatRequest = ChatRequest(model: string, temperature: real, messages: seq<Message>)

  /** An `AzureOpenAIHelper`: the index and metadata it read from the snapshot files
      when it was constructed. */
  datatype Helper = Helper(index: seq<Vector>, metadata: seq<string>)

  /** The result of `get_response`: the request sent (if any) and the returned text. */
  datatype Reply = Reply(request: Option<ChatRequest>, response: Option<string>)

  /** `AzureOpenAIHelper(api_key)`: reads the index file, then the metadata file.
      The helper is a value: stores made after construction cannot reach it. */
  function NewHelper(disk: Disk): (r: Result<Helper, QueryError>)
    ensures r.Success? <==> disk.indexFile.Some? && disk.metadataFile.Some?
    ensures disk.indexFile.None? ==> r == Failure(IndexFileMissing)
    ensures r.Success? ==> r.value.index == disk.indexFile.value && r.value.metadata == disk.metadataFile.value
  {
    match disk.indexFile
    case None => Failure(IndexFileMissing)
    case Some(index) =>
      match disk.metadataFile
      case None => Failure(MetadataFileMissing)
      case Some(metadata) => Success(Helper(index, metadata))
  }

  /** `[self.metadata[idx] for idx in indices[0]]` with Python's indexing. */
  function ResolveTexts(metadata: seq<string>, ids: seq<int>): (r: Result<seq<string>, QueryError>)
    ensures r.Success? <==> forall i :: 0 <= i < |ids| ==> -|metadata| <= ids[i] < |metadata|
    ensures r.Success? ==> |r.value| == |ids|
    ensures r.Success? ==> forall i :: 0 <= i < |ids| ==> r.value[i] == PyIndex(metadata, ids[i]).value
    decreases |ids|
  {
    if |ids| == 0 then Success([])
    else
      match PyIndex(metadata, ids[0])
      case None => Failure(IdOutOfRange(ids[0]))
      case Some(text) =>
        match ResolveTexts(metadata, ids[1..])
        case Failure(e) => Failure(e)
        case Success(rest) => Success([text] + rest)
  }

  /** `retrieve_context(query, top_k)`: the texts of the returned ids joined by
      newlines in search order. */
  function RetrieveContext(h: Helper, query: string, topK: int, embed: string -> Vector,
                           search: (seq<Vector>, Vector, int) -> SearchResult): (r: Result<string, QueryError>)
  {
    var found := search(h.index, embed(query), topK);
    match ResolveTexts(h.metadata, found.ids)
    case Failure(e) => Failure(e)
    case Success(texts) => Success(Join(texts, "\n"))
  }

  /** When at least one id comes back and no stored paragraph holds a newline,
      splitting the context at newlines gives back the retrieved paragraphs, one per
      returned id, in search order. */
  lemma RetrieveContextLines(h: Helper, query: string, topK: int, embed: string -> Vector,
                             search: (seq<Vector>, Vector, int) -> SearchResult)
    requires forall i :: 0 <= i < |h.metadata| ==> '\n' !in h.metadata[i]
    requires var ids := search(h.index, embed(query), topK).ids;
      |ids| > 0 && forall i :: 0 <= i < |ids| ==> 0 <= ids[i] < |h.metadata|
    ensures var ids := search(h.index, embed(query), topK).ids;
      var r := RetrieveContext(h, query, topK, embed, search);
      && r.Success?
      && |Split(r.value, '\n')| == |ids|
      && forall i :: 0 <= i < |ids| ==> Split(r.value, '\n')[i] == h.metadata[ids[i]]
  {
    var ids := search(h.index, embed(query), topK).ids;
    var texts := ResolveTexts(h.metadata, ids).value;
    assert forall i :: 0 <= i < |texts| ==> '\n' !in texts[i] by {
      forall i | 0 <= i < |texts| ensures '\n' !in texts[i] {
        assert texts[i] == h.metadata[ids[i]];
      }
    }
    SplitJoin(texts, '\n');
  }

  /** FAISS's -1 padding reaches the context as well: `self.metadata[-1]` does not
      raise, so the padded line of the context is the last stored paragraph. */
  lemma PaddingPutsLastParagraphInContext(h: Helper, query: string, topK: int, embed: string -> Vector,
                                          search: (seq<Vector>, Vector, int) -> SearchResult, i: int)
    requires forall j :: 0 <= j < |h.metadata| ==> '\n' !in h.metadata[j]
    requires var ids := search(h.index, embed(query), topK).ids;
      && (forall j :: 0 <= j < |ids| ==> -|h.metadata| <= ids[j] < |h.metadata|)
      && 0 <= i < |ids| && ids[i] == -1
    ensures var ids := search(h.index, embed(query), topK).ids;
      var r := RetrieveContext(h, query, topK, embed, search);
      && r.Success?
      && |Split(r.value, '\n')| == |ids|
      && Split(r.value, '\n')[i] == h.metadata[|h.metadata| - 1]
  {
    var ids := search(h.index, embed(query), topK).ids;
    var texts := ResolveTexts(h.metadata, ids).value;
    assert forall j :: 0 <= j < |texts| ==> '\n' !in texts[j] by {
      forall j | 0 <= j < |texts| ensures '\n' !in texts[j] {
        assert texts[j] == PyIndex(h.metadata, ids[j]).value;
      }
    }
    SplitJoin(texts, '\n');
  }

  /** The intended `retrieve_context`: padding ids are skipped, so only paragraphs
      the search really ranked reach the context. */
  function RetrieveContextSkippingPadding(h: Helper, query: string, topK: int, embed: string -> Vector,
                                         search: (seq<Vector>, Vector, int) -> SearchResult): (r: Result<string, QueryError>)
    ensures var ids := search(h.index, embed(query), topK).ids;
      r.Success? <==> forall i :: 0 <= i < |ids| ==> ids[i] < |h.metadata|
    ensures r.Success? ==>
      var kept := RealIds(search(h.index, embed(query), topK).ids);
      r.value == Join(seq(|kept|, i requires 0 <= i < |kept| => h.metadata[kept[i]]), "\n")
  {
    var found := search(h.index, embed(query), topK);
    var kept := RealIds(found.ids);
    match ResolveTexts(h.metadata, kept)
    case Failure(e) => Failure(e)
    case Success(texts) =>
      assert texts == seq(|kept|, i requires 0 <= i < |kept| => h.metadata[kept[i]]);
      Success(Join(texts, "\n"))
  }

  /** With padding skipped, the context lines are exactly the paragraphs at the
      non-negative ids, in search order. */
  lemma SkippingPaddingContextLines(h: Helper, query: string, topK: int, embed: string -> Vector,
                                    search: (seq<Vector>, Vector, int) -> SearchResult)
    requires forall i :: 0 <= i < |h.metadata| ==> '\n' !in h.metadata[i]
    requires var ids := search(h.index, embed(query), topK).ids;
      |RealIds(ids)| > 0 && forall i :: 0 <= i < |ids| ==> ids[i] < |h.metadata|
    ensures var kept := RealIds(search(h.index, embed(query), topK).ids);
      var r := RetrieveContextSkippingPadding(h, query, topK, embed, search);
      && r.Success?
      && |Split(r.value, '\n')| == |kept|
      && forall i :: 0 <= i < |kept| ==> Split(r.value, '\n')[i] == h.metadata[kept[i]]
  {
    var kept := RealIds(search(h.index, embed(query), topK).ids);
    var texts := ResolveTexts(h.metadata, kept).value;
    assert forall i :: 0 <= i < |texts| ==> '\n' !in texts[i] by {
      forall i | 0 <= i < |texts| ensures '\n' !in texts[i] {
        assert texts[i] == h.metadata[kept[i]];
      }
    }
    SplitJoin(texts, '\n');
  }

  /** Without padding ids the intended context is the context as written. */
  lemma SkippingPaddingContextAgrees(h: Helper, query: string, topK: int, embed: string -> Vector,
                                     search: (seq<Vector>, Vector, int) -> SearchResult)
    requires var ids := search(h.index, embed(query), topK).ids;
      forall i :: 0 <= i < |ids| ==> 0 <= ids[i]
    ensures RetrieveContextSkippingPadding(h, query, topK, embed, search) == RetrieveContext(h, query, topK, embed, search)
  {
    RealIdsWithoutPadding(search(h.index, embed(query), topK).ids);
  }

  /** The fixed opening of every prompt `get_response` builds. */
  const PromptHeader := "You are an assistant providing real-time updates on FOMC meetings. Use the context below to answer the user's question accurately:\n\n"

  /** The labels that open the three blocks of the prompt. */
  const ContextLabel := "Context:\n"
  const QueryLabel := "\n\nUser Query:\n"
  const InstructionLabel := "\n\nInstruction:\n"

  /** The prompt of `get_response`. */
  function RagPrompt(context: string, message: string, instruction: string): string
  {
    PromptHeader + ContextLabel + context + QueryLabel + message + InstructionLabel + instruction
  }

  /** The prompt can be cut back into its parts: the header, the context block,
      the user query block and the instruction, at fixed offsets. */
  lemma RagPromptParts(context: string, message: string, instruction: string)
    ensures var p := RagPrompt(context, message, instruction);
      var c := |PromptHeader| + |ContextLabel|;
      var m := c + |context| + |QueryLabel|;
      var i := m + |message| + |InstructionLabel|;
      && |p| == i + |instruction|
      && p[..c] == PromptHeader + ContextLabel
      && p[c..c + |context|] == context
      && p[c + |context|..m] == QueryLabel
      && p[m..m + |message|] == message
      && p[m + |message|..i] == InstructionLabel
      && p[i..] == instruction
  {
  }

  /** `model or DEFAULT_MODEL`: `None` and `""` are falsy. */
  function ChooseModel(model: Option<string>): (m: string)
    ensures model.Some? && model.value != "" ==> m == model.value
    ensures model.None? || model.value == "" ==> m == DefaultModel
  {
    match model
    case Some(name) => if name != "" then name else DefaultModel
    case None => DefaultModel
  }

  /** `get_response(message, instruction, model, temperature, include_context)`.
      Retrieval (only when `include_context`) and the completion call sit inside one
      `try`; any exception makes the reply `None`. */
  function GetResponse(h: Helper, message: string, instruction: string, model: Option<string>,
                       temperature: real, includeContext: bool, embed: string -> Vector,
                       search: (seq<Vector>, Vector, int) -> SearchResult,
                       complete: ChatRequest -> Option<string>): (r: Reply)
    ensures r.request.None? <==>
      includeContext && RetrieveContext(h, message, DefaultTopK, embed, search).Failure?
    ensures r.request.None? ==> r.response.None?
    ensures r.request.Some? ==> r.response == complete(r.request.value)
    ensures r.request.Some? ==>
      && r.request.value.model == ChooseModel(model)
      && r.request.value.temperature == temperature
      && |r.request.value.messages| == 2
      && r.request.value.messages[0] == Message(System, instruction)
      && r.request.value.messages[1].role == User
    ensures !includeContext ==>
      r.request.Some? && r.request.value.messages[1].content == RagPrompt("", message, instruction)
    ensures includeContext && r.request.Some? ==>
      r.request.value.messages[1].content ==
        RagPrompt(RetrieveContext(h, message, DefaultTopK, embed, search).value, message, instruction)
  {
    var chosen := ChooseModel(model);
    var context := if includeContext then RetrieveContext(h, message, DefaultTopK, embed, search) else Success("");
    match context
    case Failure(_) => Reply(None, None)
    case Success(text) =>
      var prompt := RagPrompt(text, message, instruction);
      var request := ChatRequest(chosen, temperature, [Message(System, instruction), Message(User, prompt)]);
      Reply(Some(request), complete(request))
  }

  /** Without context the reply does not depend on the helper's snapshot or on the
      search: no retrieval happens. */
  lemma NoContextNoRetrieval(h1: Helper, h2: Helper, message: string, instruction: string,
                             model: Option<string>, temperature: real,
                             embed1: string -> Vector, embed2: string -> Vector,
                             search1: (seq<Vector>, Vector, int) -> SearchResult,
                             search2: (seq<Vector>, Vector, int) -> SearchResult,
                             complete: ChatRequest -> Option<string>)
    ensures GetResponse(h1, message, instruction, model, temperature, false, embed1, search1, complete)
         == GetResponse(h2, message, instruction, model, temperature, false, embed2, search2, complete)
  {
  }

  /** The request of the dashboard helper's `get_response(message, instruction,
      model=None, temperature=1.0)`: the model chosen by `model or DEFAULT_MODEL`, the
      instruction as the system message and the caller's message, unchanged, as the
      user message. */
  function ResponderRequest(message: string, instruction: string, model: Option<string> := None,
                            temperature: real := 1.0): (q: ChatRequest)
    ensures model.Some? && model.value != "" ==> q.model == model.value
    ensures model.None? || model.value == "" ==> q.model == DefaultModel
    ensures q.temperature == temperature
    ensures q.messages == [Message(System, instruction), Message(User, message)]
  {
    ChatRequest(ChooseModel(model), temperature, [Message(System, instruction), Message(User, message)])
  }

  /** Called with only a message and an instruction, the dashboard helper asks the
      default model at temperature 1.0; an empty model name is the same as none. */
  lemma ResponderDefaults(message: string, instruction: string, temperature: real)
    ensures ResponderRequest(message, instruction) == ResponderRequest(message, instruction, Some(DefaultModel), 1.0)
    ensures ResponderRequest(message, instruction, Some(""), temperature)
         == ResponderRequest(message, instruction, None, temperature)
  {
  }
}

=== FILE: question_pages.dfy ===
/** The question-handling block of the two RateRadar dashboard pages,
    `fomc_dashboard/pages/chatbot_assistant.py` and `fomc_dashboard/app.py`. Both
    check the API key, build the helper, and for a non-empty question retrieve
    paragraphs, join them into a context, build a prompt, ask the helper for a
    completion and show the outcome. The retrieval function those pages import is
    not part of this model: it is a function parameter from the question to the hits,
    or to the message of the exception it raised. */
module QuestionPages {
  import opened Wrappers
  import opened Text
  import opened VectorStore
  import opened OpenAIHelper

  /** What the page shows in the end. */
  datatype Display =
    | Warning(message: string)     // st.warning
    | Blank                        // nothing is shown for an empty question
    | ShowError(message: string)   // response_placeholder.error
    | ShowAnswer(answer: string)   // the response box

  /** What one run of the block did: whether the helper was built, what was asked
      of retrieval and of the completion, and what was shown. */
  datatype PageRun = PageRun(helperBuilt: bool, retrieval: Option<string>, request: Option<ChatRequest>, display: Display)

  /** The strings in which the two pages differ. */
  datatype PageText = PageText(directive: string, instruction: string, noResponse: string)

  const ApiKeyWarning := "\U{26A0}\U{FE0F} Please enter your API key to start using the assistant."
  const NoDataMessage := "No relevant data found for your query."
  const ErrorPrefix := "An error occurred: "
  const Temperature: real := 0.7

  /** The strings of `chatbot_assistant.py`. */
  const AssistantPageText := PageText(
    "\n\nAnswer concisely as a personal assistant.",
    "You are an assistant providing insights on FOMC meetings, interest rates, and economic policy.",
    "Sorry, I could not retrieve a response. Please try again.")

  /** The strings of `app.py`. */
  const AppPageText := PageText(
    "\n\nAnswer concisely.",
    "You are an assistant providing FOMC insights.",
    "Sorry, no response available. Please try again.")

  /** `[result['text'] for result in faiss_results]`. */
  function HitTexts(hits: seq<Hit>): (texts: seq<string>)
    ensures |texts| == |hits|
    ensures forall i :: 0 <= i < |hits| ==> texts[i] == hits[i].text
  {
    seq(|hits|, i requires 0 <= i < |hits| => hits[i].text)
  }

  /** `"\n".join(...)` of the hit texts. */
  function HitContext(hits: seq<Hit>): string
  {
    Join(HitTexts(hits), "\n")
  }

  /** `f"Context: {context}\n\nQuestion: {user_question}"` followed by the page's
      answer directive. */
  function QuestionPrompt(page: PageText, context: string, question: string): string
  {
    "Context: " + context + "\n\nQuestion: " + question + page.directive
  }

  /** The prompt can be cut back into its parts at fixed offsets. */
  lemma QuestionPromptParts(page: PageText, context: string, question: string)
    ensures var p := QuestionPrompt(page, context, question);
      var q := 9 + |context| + 12;
      && |p| == q + |question| + |page.directive|
      && p[..9] == "Context: "
      && p[9..9 + |context|] == context
      && p[9 + |context|..q] == "\n\nQuestion: "
      && p[q..q + |question|] == question
      && p[q + |question|..] == page.directive
  {
  }

  /** A falsy reply: `None` or the empty string. */
  predicate Falsy(reply: Option<string>)
  {
    reply.None? || reply.value == ""
  }

  /** The block from the API key check to the `except` clause. */
  function HandleQuestion(page: PageText, apiKey: string, question: string,
                          retrieve: string -> Result<seq<Hit>, string>,
                          complete: ChatRequest -> Option<string>): (r: PageRun)
    ensures apiKey == "" <==> r.display == Warning(ApiKeyWarning)
    ensures apiKey == "" ==> !r.helperBuilt && r.retrieval.None? && r.request.None?
    ensures r.helperBuilt <==> apiKey != ""
    ensures r.retrieval.Some? <==> apiKey != "" && question != ""
    ensures r.retrieval.Some? ==> r.retrieval.value == question
    ensures apiKey != "" && question == "" ==> r.display == Blank && r.request.None?
    ensures r.retrieval.Some? && retrieve(question).Failure? ==>
      r.request.None? && r.display == ShowError(ErrorPrefix + retrieve(question).error)
    ensures r.retrieval.Some? && retrieve(question) == Success([]) ==>
      r.request.None? && r.display == ShowError(NoDataMessage)
    ensures r.request.Some? <==>
      r.retrieval.Some? && retrieve(question).Success? && |retrieve(question).value| > 0
    ensures r.request.Some? ==>
      r.request.value == ResponderRequest(QuestionPrompt(page, HitContext(retrieve(question).value), question),
                                          page.instruction, None, Temperature)
    ensures r.request.Some? && Falsy(complete(r.request.value)) ==> r.display == ShowError(page.noResponse)
    ensures r.display.ShowAnswer? <==> r.request.Some? && !Falsy(complete(r.request.value))
    ensures r.display.ShowAnswer? ==> r.display.answer == complete(r.request.value).value
  {
    if apiKey == "" then PageRun(false, None, None, Warning(ApiKeyWarning))
    else if question == "" then PageRun(true, None, None, Blank)
    else
      match retrieve(question)
      case Failure(e) => PageRun(true, Some(question), None, ShowError(ErrorPrefix + e))
      case Success(hits) =>
        if |hits| == 0 then PageRun(true, Some(question), None, ShowError(NoDataMessage))
        else
          var prompt := QuestionPrompt(page, HitContext(hits), question);
          var request := ResponderRequest(prompt, page.instruction, None, Temperature);
          var reply := complete(request);
          if Falsy(reply) then PageRun(true, Some(question), Some(request), ShowError(page.noResponse))
          else PageRun(true, Some(question), Some(request), ShowAnswer(reply.value))
  }

  /** The block of `chatbot_assistant.py`. */
  function AssistantPage(apiKey: string, question: string, retrieve: string -> Result<seq<Hit>, string>,
                         complete: ChatRequest -> Option<string>): (r: PageRun)
    ensures r.request.Some? ==> retrieve(question).Success? && |r.request.value.messages| == 2
    ensures r.request.Some? ==>
      r.request.value.messages[1].content ==
        "Context: " + HitContext(retrieve(question).value) + "\n\nQuestion: " + question +
        "\n\nAnswer concisely as a personal assistant."
    ensures r.request.Some? ==>
      r.request.value.messages[0] ==
        Message(System, "You are an assistant providing insights on FOMC meetings, interest rates, and economic policy.")
    ensures r.request.Some? ==> r.request.value.temperature == 0.7 && r.request.value.model == DefaultModel
    ensures r.request.Some? && Falsy(complete(r.request.value)) ==>
      r.display == ShowError("Sorry, I could not retrieve a response. Please try again.")
  {
    HandleQuestion(AssistantPageText, apiKey, question, retrieve, complete)
  }

  /** The block of `app.py`. */
  function AppPage(apiKey: string, question: string, retrieve: string -> Result<seq<Hit>, string>,
                   complete: ChatRequest -> Option<string>): (r: PageRun)
    ensures r.request.Some? ==> retrieve(question).Success? && |r.request.value.messages| == 2
    ensures r.request.Some? ==>
      r.request.value.messages[1].content ==
        "Context: " + HitContext(retrieve(question).value) + "\n\nQuestion: " + question + "\n\nAnswer concisely."
    ensures r.request.Some? ==> r.request.value.messages[0] == Message(System, "You are an assistant providing FOMC insights.")
    ensures r.request.Some? ==> r.request.value.temperature == 0.7 && r.request.value.model == DefaultModel
    ensures r.request.Some? && Falsy(complete(r.request.value)) ==>
      r.display == ShowError("Sorry, no response available. Please try again.")
  {
    HandleQuestion(AppPageText, apiKey, question, retrieve, complete)
  }

  /** When no retrieved paragraph holds a newline, the context the prompt carries
      splits back into the retrieved texts, in retrieval order. */
  lemma ContextKeepsRetrievalOrder(hits: seq<Hit>)
    requires |hits| > 0
    requires forall i :: 0 <= i < |hits| ==> '\n' !in hits[i].text
    ensures Split(HitContext(hits), '\n') == HitTexts(hits)
  {
    SplitJoin(HitTexts(hits), '\n');
  }
}

=== FILE: text.dfy ===
/** String helpers with Python's meaning: `p in s`, `sep.join(xs)`, `s.split(c)`,
    `"".join(xs)` and the ASCII part of `str.lower`. */
module Text {

  /** `p` is a prefix of `s` (Python's `s.startswith(p)`). */
  predicate IsPrefix(p: string, s: string)
  {
    |p| <= |s| && s[..|p|] == p
  }

  /** Python's substring test `p in s`. */
  predicate Contains(s: string, p: string)
    decreases |s|
  {
    IsPrefix(p, s) || (|s| > 0 && Contains(s[1..], p))
  }

  /** `p` occurs in `s` starting at position `i`. */
  predicate OccursAt(s: string, p: string, i: int)
  {
    0 <= i <= |s| - |p| && s[i..i + |p|] == p
  }

  /** `p in s` holds exactly when `p` occurs at some position of `s`. */
  lemma {:induction false} ContainsAt(s: string, p: string)
    ensures Contains(s, p) <==> exists i :: OccursAt(s, p, i)
    decreases |s|
  {
    if IsPrefix(p, s) {
      assert OccursAt(s, p, 0);
    }
    if |s| > 0 {
      ContainsAt(s[1..], p);
      if Contains(s[1..], p) {
        var i :| OccursAt(s[1..], p, i);
        assert s[i + 1..i + 1 + |p|] == s[1..][i..i + |p|];
        assert OccursAt(s, p, i + 1);
      }
      if exists i :: OccursAt(s, p, i) {
        var i :| OccursAt(s, p, i);
        if i > 0 {
          assert s[1..][i - 1..i - 1 + |p|] == s[i..i + |p|];
          assert OccursAt(s[1..], p, i - 1);
        }
      }
    } else if exists i :: OccursAt(s, p, i) {
      var i :| OccursAt(s, p, i);
      assert IsPrefix(p, s);
    }
  }

  /** A string always contains itself when it is surrounded by anything. */
  lemma ContainsMiddle(a: string, p: string, b: string)
    ensures Contains(a + p + b, p)
  {
    var s := a + p + b;
    assert s[|a|..|a| + |p|] == p;
    assert OccursAt(s, p, |a|);
    ContainsAt(s, p);
  }

  /** Python's `sep.join(xs)`. */
  function Join(xs: seq<string>, sep: string): string
  {
    if |xs| == 0 then ""
    else if |xs| == 1 then xs[0]
    else xs[0] + sep + Join(xs[1..], sep)
  }

  /** Appending one more element puts exactly one separator before it. */
  lemma {:induction false} JoinSnoc(xs: seq<string>, x: string, sep: string)
    requires |xs| > 0
    ensures Join(xs + [x], sep) == Join(xs, sep) + sep + x
    decreases |xs|
  {
    if |xs| == 1 {
      assert xs + [x] == [xs[0], x];
    } else {
      assert (xs + [x])[1..] == xs[1..] + [x];
      JoinSnoc(xs[1..], x, sep);
    }
  }

  /** Python's `s.split(c)` for a one-character separator: never empty, and
      `"".split(c) == [""]`. */
  function Split(s: string, c: char): (r: seq<string>)
    ensures |r| >= 1
    ensures forall i :: 0 <= i < |r| ==> c !in r[i]
    decreases |s|
  {
    if |s| == 0 then [""]
    else
      var rest := Split(s[1..], c);
      if s[0] == c then [""] + rest
      else [[s[0]] + rest[0]] + rest[1..]
  }

  /** Splitting a string whose first part holds no separator glues that part
      onto the first piece. */
  lemma {:induction false} SplitGlue(x: string, t: string, c: char)
    requires c !in x
    ensures Split(x + t, c) == [x + Split(t, c)[0]] + Split(t, c)[1..]
    decreases |x|
  {
    if |x| > 0 {
      assert (x + t)[1..] == x[1..] + t;
      SplitGlue(x[1..], t, c);
      assert [x[0]] + (x[1..] + Split(t, c)[0]) == x + Split(t, c)[0];
    } else {
      assert x + t == t;
      assert Split(t, c) == [Split(t, c)[0]] + Split(t, c)[1..];
      assert x + Split(t, c)[0] == Split(t, c)[0];
    }
  }

  /** Splitting undoes joining, when no part holds the separator and there is at
      least one part (`"\n".join([])` and `"\n".join([""])` are both `""`). */
  lemma {:induction false} SplitJoin(xs: seq<string>, c: char)
    requires |xs| > 0
    requires forall i :: 0 <= i < |xs| ==> c !in xs[i]
    ensures Split(Join(xs, [c]), c) == xs
    decreases |xs|
  {
    if |xs| == 1 {
      SplitGlue(xs[0], "", c);
      assert xs[0] + "" == xs[0];
    } else {
      SplitJoin(xs[1..], c);
      var tail := [c] + Join(xs[1..], [c]);
      assert Join(xs, [c]) == xs[0] + tail;
      SplitGlue(xs[0], tail, c);
      assert tail[1..] == Join(xs[1..], [c]);
      assert Split(tail, c) == [""] + xs[1..];
      assert xs[0] + "" == xs[0];
    }
  }

  /** `xs` is `ys` with some elements left out, the rest in their order (greedy
      matching decides it). */
  predicate IsSublist<T(==)>(xs: seq<T>, ys: seq<T>)
    decreases |ys|
  {
    |xs| == 0 || (|ys| > 0 && (if xs[0] == ys[0] then IsSublist(xs[1..], ys[1..]) else IsSublist(xs, ys[1..])))
  }

  /** Concatenation of a sequence of sequences: Python's `"".join(xs)` for strings. */
  function Flatten<T>(xs: seq<seq<T>>): seq<T>
  {
    if |xs| == 0 then [] else xs[0] + Flatten(xs[1..])
  }

  /** Flattening one more part appends that part. */
  lemma {:induction false} FlattenSnoc<T>(xs: seq<seq<T>>, x: seq<T>)
    ensures Flatten(xs + [x]) == Flatten(xs) + x
    decreases |xs|
  {
    if |xs| > 0 {
      assert (xs + [x])[1..] == xs[1..] + [x];
      FlattenSnoc(xs[1..], x);
    } else {
      assert [x][1..] == [];
    }
  }

  /** The lower-case form of an ASCII upper-case letter; every other character is kept. */
  function LowerChar(c: char): char
  {
    if 'A' <= c <= 'Z' then (c as int - 'A' as int + 'a' as int) as char else c
  }

  /** `str.lower` restricted to ASCII letters. */
  function AsciiLower(s: string): string
  {
    if |s| == 0 then "" else [LowerChar(s[0])] + AsciiLower(s[1..])
  }

  /** Lowering keeps length and maps each position by `LowerChar`. */
  lemma {:induction false} AsciiLowerAt(s: string)
    ensures |AsciiLower(s)| == |s|
    ensures forall i :: 0 <= i < |s| ==> AsciiLower(s)[i] == LowerChar(s[i])
    decreases |s|
  {
    if |s| > 0 {
      AsciiLowerAt(s[1..]);
    }
  }

  /** Lowering distributes over concatenation. */
  lemma AsciiLowerAppend(a: string, b: string)
    ensures AsciiLower(a + b) == AsciiLower(a) + AsciiLower(b)
  {
    AsciiLowerAt(a + b);
    AsciiLowerAt(a);
    AsciiLowerAt(b);
  }
}

=== FILE: text_cleaning.dfy ===
/** `clean_text` of `Semantic_talk/NLP_advanced.py` (collapse whitespace runs, drop
    everything but ASCII letters and whitespace) and of `Semantic_talk/NLP.py` (the
    same, then lower-cased). */
module TextCleaning {
  import opened Text

  /** The class `\s` of a Python `str` pattern: the characters `str.isspace()` accepts. */
  predicate IsSpace(c: char)
  {
    || c == ' '
    || '\U{9}' <= c <= '\U{D}'
    || '\U{1C}' <= c <= '\U{1F}'
    || c == '\U{85}' || c == '\U{A0}' || c == '\U{1680}'
    || '\U{2000}' <= c <= '\U{200A}'
    || c == '\U{2028}' || c == '\U{2029}' || c == '\U{202F}' || c == '\U{205F}' || c == '\U{3000}'
  }

  /** The class `[a-zA-Z]`. */
  predicate IsAsciiLetter(c: char)
  {
    'a' <= c <= 'z' || 'A' <= c <= 'Z'
  }

  /** The ASCII letters of `s`, in order. */
  function Letters(s: string): string
  {
    if |s| == 0 then ""
    else if IsAsciiLetter(s[0]) then [s[0]] + Letters(s[1..])
    else Letters(s[1..])
  }

  /** The characters of `s` that are not whitespace, in order. */
  function NonSpace(s: string): string
  {
    if |s| == 0 then ""
    else if IsSpace(s[0]) then NonSpace(s[1..])
    else [s[0]] + NonSpace(s[1..])
  }

  /** `re.sub(r"\s+", " ", s)`, scanning left to right; `inRun` says whether the
      previous character was whitespace already replaced. */
  function Collapse(s: string, inRun: bool): string
    decreases |s|
  {
    if |s| == 0 then ""
    else if IsSpace(s[0]) then
      if inRun then Collapse(s[1..], true) else " " + Collapse(s[1..], true)
    else [s[0]] + Collapse(s[1..], false)
  }

  /** What the collapse leaves: never longer than its input, the only whitespace is
      the plain space, never two spaces in a row (nor a leading one inside a run),
      and every other character in its place. */
  lemma {:induction false} CollapseShape(s: string, inRun: bool)
    ensures |Collapse(s, inRun)| <= |s|
    ensures forall i :: 0 <= i < |Collapse(s, inRun)| ==> !IsSpace(Collapse(s, inRun)[i]) || Collapse(s, inRun)[i] == ' '
    ensures NonSpace(Collapse(s, inRun)) == NonSpace(s)
    ensures inRun && |Collapse(s, inRun)| > 0 ==> Collapse(s, inRun)[0] != ' '
    ensures forall i :: 0 <= i < |Collapse(s, inRun)| - 1 ==> !(Collapse(s, inRun)[i] == ' ' && Collapse(s, inRun)[i + 1] == ' ')
    decreases |s|
  {
    if |s| > 0 {
      CollapseShape(s[1..], true);
      CollapseShape(s[1..], false);
      var r := Collapse(s, inRun);
      if IsSpace(s[0]) && !inRun {
        var t := Collapse(s[1..], true);
        assert r == " " + t;
        assert forall i :: 1 <= i < |r| ==> r[i] == t[i - 1];
        assert NonSpace(r) == NonSpace(t);
      } else if !IsSpace(s[0]) {
        var t := Collapse(s[1..], false);
        assert r == [s[0]] + t;
        assert forall i :: 1 <= i < |r| ==> r[i] == t[i - 1];
        assert NonSpace(r) == [s[0]] + NonSpace(t);
      }
    }
  }

  /** `re.sub(r"[^a-zA-Z\s]", "", s)`. */
  function StripSpecial(s: string): string
    decreases |s|
  {
    if |s| == 0 then ""
    else if IsAsciiLetter(s[0]) || IsSpace(s[0]) then [s[0]] + StripSpecial(s[1..])
    else StripSpecial(s[1..])
  }

  /** What the strip leaves: never longer, only ASCII letters and whitespace taken
      from the input, and every letter in its place. */
  lemma {:induction false} StripSpecialShape(s: string)
    ensures |StripSpecial(s)| <= |s|
    ensures forall i :: 0 <= i < |StripSpecial(s)| ==> IsAsciiLetter(StripSpecial(s)[i]) || IsSpace(StripSpecial(s)[i])
    ensures forall i :: 0 <= i < |StripSpecial(s)| ==> StripSpecial(s)[i] in s
    ensures Letters(StripSpecial(s)) == Letters(s)
    decreases |s|
  {
    if |s| > 0 {
      StripSpecialShape(s[1..]);
      var r := StripSpecial(s);
      var t := StripSpecial(s[1..]);
      if IsAsciiLetter(s[0]) || IsSpace(s[0]) {
        assert r == [s[0]] + t;
        assert forall i :: 1 <= i < |r| ==> r[i] == t[i - 1];
      }
      assert forall c :: c in s[1..] ==> c in s;
    }
  }

  /** Whether a scan that started with `inRun` and has consumed `a` is inside a
      whitespace run. */
  function EndsInRun(a: string, inRun: bool): bool
  {
    if |a| == 0 then inRun else IsSpace(a[|a| - 1])
  }

  /** The collapse is a left-to-right scan: collapsing `a + b` is collapsing `a`,
      then `b` in the state `a` left the scan in. */
  lemma {:induction false} CollapseAppend(a: string, b: string, inRun: bool)
    ensures Collapse(a + b, inRun) == Collapse(a, inRun) + Collapse(b, EndsInRun(a, inRun))
    decreases |a|
  {
    if |a| == 0 {
      assert a + b == b;
    } else {
      assert (a + b)[0] == a[0] && (a + b)[1..] == a[1..] + b;
      CollapseFirst(a + b, inRun);
      CollapseFirst(a, inRun);
      CollapseAppend(a[1..], b, IsSpace(a[0]));
    }
  }

  /** What the scan emits for one character, given whether a run is open. */
  function Emit(c: char, inRun: bool): string
  {
    if IsSpace(c) then (if inRun then "" else " ") else [c]
  }

  /** One step of the scan. */
  lemma CollapseFirst(s: string, inRun: bool)
    requires |s| > 0
    ensures Collapse(s, inRun) == Emit(s[0], inRun) + Collapse(s[1..], IsSpace(s[0]))
  {
  }

  /** A whitespace run of any length and kind becomes one space, or nothing when it
      continues a run already replaced. */
  lemma {:induction false} CollapseRun(w: string, inRun: bool)
    requires |w| > 0 && forall i :: 0 <= i < |w| ==> IsSpace(w[i])
    ensures Collapse(w, inRun) == if inRun then "" else " "
    decreases |w|
  {
    if |w| > 1 {
      CollapseRun(w[1..], true);
    }
  }

  /** A non-empty stretch without whitespace passes through unchanged and ends any run. */
  lemma {:induction false} CollapseWord(u: string, rest: string, inRun: bool)
    requires |u| > 0 && forall i :: 0 <= i < |u| ==> !IsSpace(u[i])
    ensures Collapse(u + rest, inRun) == u + Collapse(rest, false)
    decreases |u|
  {
    assert (u + rest)[1..] == u[1..] + rest;
    if |u| > 1 {
      CollapseWord(u[1..], rest, false);
      assert [u[0]] + (u[1..] + Collapse(rest, false)) == u + Collapse(rest, false);
    } else {
      assert u[1..] + rest == rest;
      assert [u[0]] == u;
    }
  }

  /** `re.sub(r"\s+", " ", ...)` turns every maximal whitespace run into exactly one
      space: a run that follows a non-space character (or starts the text) leaves a
      single space, and the whitespace that follows it in `b` is absorbed. */
  lemma WhitespaceRunBecomesOneSpace(a: string, w: string, b: string)
    requires |w| > 0 && forall i :: 0 <= i < |w| ==> IsSpace(w[i])
    requires !EndsInRun(a, false)
    ensures Collapse(a + w + b, false) == Collapse(a, false) + " " + Collapse(b, true)
  {
    CollapseAppend(a + w, b, false);
    CollapseAppend(a, w, false);
    CollapseRun(w, false);
  }

  /** Dropping specials works character by character: it distributes over
      concatenation. */
  lemma {:induction false} StripSpecialAppend(a: string, b: string)
    ensures StripSpecial(a + b) == StripSpecial(a) + StripSpecial(b)
    decreases |a|
  {
    if |a| == 0 {
      assert a + b == b;
    } else {
      assert (a + b)[1..] == a[1..] + b;
      StripSpecialAppend(a[1..], b);
    }
  }

  /** A single character survives exactly when it is an ASCII letter or whitespace;
      with `StripSpecialAppend` this determines `StripSpecial` on every string. */
  lemma StripSpecialOneChar(c: char)
    ensures StripSpecial([c]) == if IsAsciiLetter(c) || IsSpace(c) then [c] else []
  {
    assert [c][1..] == [];
  }

  /** A string of letters and whitespace passes through unchanged. */
  lemma {:induction false} StripSpecialKeeps(s: string)
    requires forall i :: 0 <= i < |s| ==> IsAsciiLetter(s[i]) || IsSpace(s[i])
    ensures StripSpecial(s) == s
    decreases |s|
  {
    if |s| > 0 {
      StripSpecialKeeps(s[1..]);
      assert [s[0]] + s[1..] == s;
    }
  }

  /** `clean_text` of NLP_advanced.py: ASCII letters, case kept, and single spaces for
      whitespace runs. */
  function CleanKeepCase(s: string): (r: string)
    ensures |r| <= |s|
    ensures forall i :: 0 <= i < |r| ==> IsAsciiLetter(r[i]) || r[i] == ' '
  {
    CollapseShape(s, false);
    StripSpecialShape(Collapse(s, false));
    StripSpecial(Collapse(s, false))
  }

  /** Collapsing whitespace moves no letter. */
  lemma {:induction false} CollapseKeepsLetters(s: string, inRun: bool)
    ensures Letters(Collapse(s, inRun)) == Letters(s)
    decreases |s|
  {
    if |s| > 0 {
      CollapseKeepsLetters(s[1..], true);
      CollapseKeepsLetters(s[1..], false);
    }
  }

  /** The letters of the cleaned text are the letters of the input, in order. */
  lemma CleanKeepCaseLetters(s: string)
    ensures Letters(CleanKeepCase(s)) == Letters(s)
  {
    CollapseKeepsLetters(s, false);
    StripSpecialShape(Collapse(s, false));
  }

  /** `clean_text` of NLP.py: lower-case ASCII letters and spaces only, never longer
      than its input. */
  function CleanLower(s: string): (r: string)
    ensures |r| <= |s|
    ensures forall i :: 0 <= i < |r| ==> 'a' <= r[i] <= 'z' || r[i] == ' '
  {
    var kept := CleanKeepCase(s);
    AsciiLowerAt(kept);
    AsciiLower(kept)
  }

  /** Lowering commutes with taking the letters. */
  lemma {:induction false} LettersOfLower(s: string)
    ensures Letters(AsciiLower(s)) == AsciiLower(Letters(s))
    decreases |s|
  {
    if |s| > 0 {
      LettersOfLower(s[1..]);
      if IsAsciiLetter(s[0]) {
        assert AsciiLower([s[0]] + Letters(s[1..])) == [LowerChar(s[0])] + AsciiLower(Letters(s[1..]));
      }
    }
  }

  /** The letters of `clean_text(t)` in NLP.py are the ASCII letters of `t`, lowered,
      in order. */
  lemma CleanLowerLetters(s: string)
    ensures Letters(CleanLower(s)) == AsciiLower(Letters(s))
  {
    CleanKeepCaseLetters(s);
    LettersOfLower(CleanKeepCase(s));
  }

  /** A string without letters has no letter at any position. */
  lemma {:induction false} NoLettersAnywhere(s: string)
    requires Letters(s) == ""
    ensures forall i :: 0 <= i < |s| ==> !IsAsciiLetter(s[i])
    decreases |s|
  {
    if |s| > 0 {
      NoLettersAnywhere(s[1..]);
      assert forall i :: 1 <= i < |s| ==> s[i] == s[1..][i - 1];
    }
  }

  /** Two words separated by any whitespace run come out of `clean_text` joined by
      exactly one space, whatever surrounds them: the multi-word terms ("cut rates",
      "reduce liquidity", "lower interest") survive a line break in the input. */
  lemma CleanKeepsWordBoundary(a: string, u: string, w: string, v: string, b: string)
    requires |u| > 0 && forall i :: 0 <= i < |u| ==> IsAsciiLetter(u[i])
    requires |v| > 0 && forall i :: 0 <= i < |v| ==> IsAsciiLetter(v[i])
    requires |w| > 0 && forall i :: 0 <= i < |w| ==> IsSpace(w[i])
    ensures CleanKeepCase(a + u + w + v + b) == CleanKeepCase(a) + u + " " + v + CleanKeepCase(b)
  {
    CollapseWordBoundary(a, u, w, v, b);
    var ca := Collapse(a, false);
    var cb := Collapse(b, false);
    StripAroundWords(ca, u, v, cb);
    assert CleanKeepCase(a) == StripSpecial(ca);
    assert CleanKeepCase(b) == StripSpecial(cb);
  }

  /** The collapse half: letters pass, the run between them becomes one space. */
  lemma CollapseWordBoundary(a: string, u: string, w: string, v: string, b: string)
    requires |u| > 0 && forall i :: 0 <= i < |u| ==> IsAsciiLetter(u[i])
    requires |v| > 0 && forall i :: 0 <= i < |v| ==> IsAsciiLetter(v[i])
    requires |w| > 0 && forall i :: 0 <= i < |w| ==> IsSpace(w[i])
    ensures Collapse(a + u + w + v + b, false) == Collapse(a, false) + (u + (" " + (v + Collapse(b, false))))
  {
    assert a + u + w + v + b == a + (u + (w + (v + b)));
    CollapseAppend(a, u + (w + (v + b)), false);
    CollapseWord(u, w + (v + b), EndsInRun(a, false));
    CollapseAppend(w, v + b, false);
    CollapseRun(w, false);
    CollapseWord(v, b, true);
  }

  /** The strip half: letters and the one space pass through. */
  lemma StripAroundWords(ca: string, u: string, v: string, cb: string)
    requires forall i :: 0 <= i < |u| ==> IsAsciiLetter(u[i])
    requires forall i :: 0 <= i < |v| ==> IsAsciiLetter(v[i])
    ensures StripSpecial(ca + (u + (" " + (v + cb)))) == StripSpecial(ca) + u + " " + v + StripSpecial(cb)
  {
    var sa, sb := StripSpecial(ca), StripSpecial(cb);
    var tail := v + cb;
    var mid := " " + tail;
    StripKeptPrefix(v, cb);
    StripKeptPrefix(" ", tail);
    StripKeptPrefix(u, mid);
    assert StripSpecial(u + mid) == u + (" " + (v + sb));
    StripSpecialAppend(ca, u + mid);
    Concat5(sa, u, " ", v, sb);
  }

  /** Regrouping a five-part concatenation. */
  lemma Concat5(p: string, q: string, r: string, s: string, t: string)
    ensures p + (q + (r + (s + t))) == p + q + r + s + t
  {
  }

  /** A prefix of letters and whitespace passes through the strip unchanged. */
  lemma StripKeptPrefix(p: string, x: string)
    requires forall i :: 0 <= i < |p| ==> IsAsciiLetter(p[i]) || IsSpace(p[i])
    ensures StripSpecial(p + x) == p + StripSpecial(x)
  {
    StripSpecialAppend(p, x);
    StripSpecialKeeps(p);
  }

  /** The same for `clean_text` of NLP.py, where the words come out lower-cased. */
  lemma CleanLowerKeepsWordBoundary(a: string, u: string, w: string, v: string, b: string)
    requires |u| > 0 && forall i :: 0 <= i < |u| ==> IsAsciiLetter(u[i])
    requires |v| > 0 && forall i :: 0 <= i < |v| ==> IsAsciiLetter(v[i])
    requires |w| > 0 && forall i :: 0 <= i < |w| ==> IsSpace(w[i])
    ensures CleanLower(a + u + w + v + b) == CleanLower(a) + AsciiLower(u) + " " + AsciiLower(v) + CleanLower(b)
  {
    CleanKeepsWordBoundary(a, u, w, v, b);
    var ka := CleanKeepCase(a);
    var kb := CleanKeepCase(b);
    AsciiLowerAppend(ka + u + " " + v, kb);
    AsciiLowerAppend(ka + u + " ", v);
    AsciiLowerAppend(ka + u, " ");
    AsciiLowerAppend(ka, u);
    assert AsciiLower(" ") == " ";
  }
}

=== FILE: trader_dashboard.dfy ===
/** `fomc_app/main.py`: the keyword chatbot, the `current_tab` session state set by
    the sidebar buttons, and the choice of the one content branch a run renders.
    Streamlit rendering is outside the model. */
module TraderDashboard {
  import opened Wrappers
  import opened Text

  const InterestRateAnswer := "Interest rates represent the cost of borrowing money. Higher rates tend to slow the economy and hurt stock prices."
  const InflationAnswer := "Inflation is when prices rise over time. The Fed raises rates to control inflation."
  const StocksAnswer := "Higher rates often hurt growth stocks (like tech), while stable rates benefit equities overall."
  const NextMeetingAnswer := "The next FOMC meeting is scheduled for September 20, 2024."
  const HelpAnswer := "I can help with questions about interest rates, inflation, and the stock market. Try asking about these topics!"

  /** Does the lower-cased query contain `keyword`? */
  predicate Mentions(query: string, keyword: string)
  {
    Contains(AsciiLower(query), keyword)
  }

  /** `chatbot_response(query)`: the first keyword found, in the order interest rate,
      inflation, stocks, next meeting, decides the answer; none gives the help text. */
  function ChatbotResponse(query: string): (r: string)
    ensures r in {InterestRateAnswer, InflationAnswer, StocksAnswer, NextMeetingAnswer, HelpAnswer}
    ensures r == InterestRateAnswer <==> Mentions(query, "interest rate")
    ensures r == InflationAnswer <==> !Mentions(query, "interest rate") && Mentions(query, "inflation")
    ensures r == StocksAnswer <==>
      !Mentions(query, "interest rate") && !Mentions(query, "inflation") && Mentions(query, "stocks")
    ensures r == NextMeetingAnswer <==>
      !Mentions(query, "interest rate") && !Mentions(query, "inflation") && !Mentions(query, "stocks") &&
      Mentions(query, "next meeting")
    ensures r == HelpAnswer <==>
      !Mentions(query, "interest rate") && !Mentions(query, "inflation") && !Mentions(query, "stocks") &&
      !Mentions(query, "next meeting")
  {
    if Mentions(query, "interest rate") then InterestRateAnswer
    else if Mentions(query, "inflation") then InflationAnswer
    else if Mentions(query, "stocks") then StocksAnswer
    else if Mentions(query, "next meeting") then NextMeetingAnswer
    else HelpAnswer
  }

  /** "interest rate" written in any case, anywhere in the query, wins over every
      other keyword. */
  lemma InterestRateInAnyCaseWins(before: string, keyword: string, after: string)
    requires AsciiLower(keyword) == "interest rate"
    ensures ChatbotResponse(before + keyword + after) == InterestRateAnswer
  {
    AsciiLowerAppend(before + keyword, after);
    AsciiLowerAppend(before, keyword);
    ContainsMiddle(AsciiLower(before), "interest rate", AsciiLower(after));
  }

  /** The five sidebar buttons, in script order; each sets the tab to its own label. */
  const TabLabels: seq<string> := ["Meeting Summary", "Market Reactions", "Interest Rate Trends", "Chatbot Assistant", "Trading Cheat Sheet"]

  /** The default tab. */
  const DefaultTab := "Meeting Summary"

  /** `if "current_tab" not in st.session_state: ...`: a missing tab becomes the
      default; a present one is kept. */
  function InitTab(current: Option<string>): (tab: string)
    ensures current.None? ==> tab == DefaultTab
    ensures current.Some? ==> tab == current.value
  {
    match current
    case None => DefaultTab
    case Some(t) => t
  }

  /** The position of the last pressed button, or -1 when none is pressed. */
  function LastPressed(pressed: seq<bool>): (j: int)
    ensures -1 <= j < |pressed|
    ensures j >= 0 ==> pressed[j]
    ensures forall k :: j < k < |pressed| ==> !pressed[k]
    decreases |pressed|
  {
    if |pressed| == 0 then -1
    else if pressed[|pressed| - 1] then |pressed| - 1
    else LastPressed(pressed[..|pressed| - 1])
  }

  /** The button checks in script order: each pressed button overwrites the tab
      with its label, so the last pressed one wins; none pressed keeps the tab. */
  function PressButtons(tab: string, labels: seq<string>, pressed: seq<bool>): (r: string)
    requires |labels| == |pressed|
    ensures LastPressed(pressed) == -1 ==> r == tab
    ensures LastPressed(pressed) >= 0 ==> r == labels[LastPressed(pressed)]
    decreases |labels|
  {
    if |labels| == 0 then tab
    else
      var last := |labels| - 1;
      var before := PressButtons(tab, labels[..last], pressed[..last]);
      if pressed[last] then labels[last] else before
  }

  /** The content sections of the page. */
  datatype Branch = MeetingSummary | MarketReactions | InterestRateTrends | ChatbotAssistant | TradingCheatSheet

  /** The tab label that opens each section. */
  function BranchLabel(b: Branch): string
  {
    match b
    case MeetingSummary => TabLabels[0]
    case MarketReactions => TabLabels[1]
    case InterestRateTrends => TabLabels[2]
    case ChatbotAssistant => TabLabels[3]
    case TradingCheatSheet => TabLabels[4]
  }

  /** The `if`/`elif` chain on `current_tab`: at most one section, and none for a tab
      that is not one of the five labels. */
  function SelectBranch(tab: string): (r: Option<Branch>)
    ensures r.Some? <==> tab in TabLabels
    ensures r.Some? ==> BranchLabel(r.value) == tab
  {
    if tab == TabLabels[0] then Some(MeetingSummary)
    else if tab == TabLabels[1] then Some(MarketReactions)
    else if tab == TabLabels[2] then Some(InterestRateTrends)
    else if tab == TabLabels[3] then Some(ChatbotAssistant)
    else if tab == TabLabels[4] then Some(TradingCheatSheet)
    else None
  }

  /** Selecting the label of a section selects that section. */
  lemma SelectBranchLabel(b: Branch)
    ensures SelectBranch(BranchLabel(b)) == Some(b)
  {
  }

  /** What one script run leaves and shows: the tab kept in the session, the section
      rendered, and the chatbot's reply when one is written. */
  datatype Run = Run(tab: string, branch: Option<Branch>, botReply: Option<string>)

  /** One run of the script: initialise the tab, apply the buttons, render the chosen
      section; the chatbot section replies only to a non-empty query. */
  function RunScript(current: Option<string>, pressed: seq<bool>, query: string): (r: Run)
    requires |pressed| == |TabLabels|
    ensures r.tab == PressButtons(InitTab(current), TabLabels, pressed)
    ensures r.branch == SelectBranch(r.tab)
    ensures r.botReply.Some? <==> r.branch == Some(ChatbotAssistant) && query != ""
    ensures r.botReply.Some? ==> r.botReply.value == ChatbotResponse(query)
  {
    var tab := PressButtons(InitTab(current), TabLabels, pressed);
    var branch := SelectBranch(tab);
    var reply := if branch == Some(ChatbotAssistant) && query != "" then Some(ChatbotResponse(query)) else None;
    Run(tab, branch, reply)
  }

  /** The tab only ever holds one of the five labels once the script has run from a
      fresh session or from a session it set, so every run renders exactly one
      section. */
  lemma RunsKeepValidTab(current: Option<string>, pressed: seq<bool>, query: string)
    requires |pressed| == |TabLabels|
    requires current.None? || current.value in TabLabels
    ensures RunScript(current, pressed, query).tab in TabLabels
    ensures RunScript(current, pressed, query).branch.Some?
  {
    var start := InitTab(current);
    assert start in TabLabels;
    var j := LastPressed(pressed);
    if j >= 0 {
      assert PressButtons(start, TabLabels, pressed) == TabLabels[j];
    }
  }

  /** The session's `current_tab` after a sequence of script runs, each given the
      buttons pressed before it; `None` until the first run. */
  function SessionTab(current: Option<string>, runs: seq<seq<bool>>): (r: Option<string>)
    requires forall i :: 0 <= i < |runs| ==> |runs[i]| == |TabLabels|
    ensures |runs| == 0 ==> r == current
    ensures |runs| > 0 ==> r.Some?
    decreases |runs|
  {
    if |runs| == 0 then current
    else
      var last := |runs| - 1;
      Some(RunScript(SessionTab(current, runs[..last]), runs[last], "").tab)
  }

  /** However many runs a fresh session has seen, its tab is one of the five labels
      (or still unset), and the next run renders a section. */
  lemma {:induction false} SessionKeepsValidTab(runs: seq<seq<bool>>)
    requires forall i :: 0 <= i < |runs| ==> |runs[i]| == |TabLabels|
    ensures SessionTab(None, runs).None? || SessionTab(None, runs).value in TabLabels
    ensures forall pressed, query :: |pressed| == |TabLabels| ==>
      RunScript(SessionTab(None, runs), pressed, query).branch.Some?
    decreases |runs|
  {
    if |runs| > 0 {
      var last := |runs| - 1;
      SessionKeepsValidTab(runs[..last]);
      RunsKeepValidTab(SessionTab(None, runs[..last]), runs[last], "");
    }
    forall pressed, query | |pressed| == |TabLabels|
      ensures RunScript(SessionTab(None, runs), pressed, query).branch.Some?
    {
      RunsKeepValidTab(SessionTab(None, runs), pressed, query);
    }
  }
}

=== FILE: vector_store.dfy ===
/** The paragraph store of `fomc_app/modules/sentence_transformer.py`: a FAISS index
    of embeddings with a parallel `metadata` list of paragraphs, both rewritten to a
    snapshot (`faiss_index.index`, `metadata.pkl`) after every store, and a query that
    reads the snapshot back and joins the ids FAISS returns against the metadata.

    Vectors, the embedding model and the FAISS search are opaque: the embedding is a
    function parameter and the search a function from (index, query vector, k) to
    parallel id and distance sequences. */
module VectorStore {
  import opened Wrappers
  import opened Text

  /** An embedding; the model never looks at its numbers. */
  type Vector = seq<real>

  /** One query result: `{"text": ..., "distance": ...}`. */
  datatype Hit = Hit(text: string, distance: real)

  /** The two snapshot files; `None` when a file does not exist. */
  datatype Disk = Disk(indexFile: Option<seq<Vector>>, metadataFile: Option<seq<string>>)

  /** The process state: the module-level `index` and `metadata`, and the files. */
  datatype Store = Store(index: seq<Vector>, metadata: seq<string>, disk: Disk)

  /** The first row of what `faiss_index.search(q, k)` returns: ids and distances. */
  datatype SearchResult = SearchResult(ids: seq<int>, distances: seq<real>)

  /** Why a query raises. */
  datatype QueryError =
    | IndexFileMissing          // faiss.read_index finds no file
    | MetadataFileMissing       // open(metadata_file) finds no file
    | IdOutOfRange(id: int)     // metadata[idx] raises IndexError
    | DistanceMissing           // distances[0][i] raises IndexError

  /** `top_k` when the caller passes none. */
  const DefaultTopK := 5

  /** Every stored paragraph has exactly one vector. */
  predicate Aligned(s: Store)
  {
    |s.metadata| == |s.index|
  }

  /** Aligned, and vector `i` is the embedding of paragraph `i`: what lets an id
      returned by the search name the paragraph it was computed from. */
  predicate Embeds(index: seq<Vector>, metadata: seq<string>, embed: string -> Vector)
  {
    |index| == |metadata| && forall i :: 0 <= i < |index| ==> index[i] == embed(metadata[i])
  }

  /** The state at import time: an empty index and list, and whatever files an
      earlier run left behind. */
  function Initial(disk: Disk): (s: Store)
    ensures s.index == [] && s.metadata == []
    ensures Aligned(s)
    ensures s.disk == disk
  {
    Store([], [], disk)
  }

  /** `model.encode(paragraphs)`: one vector per paragraph, in order. */
  function Encode(paragraphs: seq<string>, embed: string -> Vector): (vs: seq<Vector>)
    ensures Embeds(vs, paragraphs, embed)
  {
    seq(|paragraphs|, i requires 0 <= i < |paragraphs| => embed(paragraphs[i]))
  }

  /** `store_in_faiss(paragraphs)`: add the embeddings to the index, extend the
      metadata, then write the whole index and the whole metadata list to the files. */
  function StoreInFaiss(s: Store, paragraphs: seq<string>, embed: string -> Vector): (r: Store)
    ensures |r.index| == |s.index| + |paragraphs|
    ensures r.index[..|s.index|] == s.index
    ensures |r.metadata| == |s.metadata| + |paragraphs|
    ensures r.metadata[..|s.metadata|] == s.metadata
    ensures r.metadata[|s.metadata|..] == paragraphs
    ensures r.index[|s.index|..] == Encode(paragraphs, embed)
    ensures Aligned(s) ==> Aligned(r)
    ensures Embeds(s.index, s.metadata, embed) ==> Embeds(r.index, r.metadata, embed)
    ensures r.disk == Disk(Some(r.index), Some(r.metadata))
  {
    var index := s.index + Encode(paragraphs, embed);
    var metadata := s.metadata + paragraphs;
    Store(index, metadata, Disk(Some(index), Some(metadata)))
  }

  /** A run of stores, one batch after another. */
  function StoreAll(s: Store, batches: seq<seq<string>>, embed: string -> Vector): Store
    decreases |batches|
  {
    if |batches| == 0 then s
    else StoreInFaiss(StoreAll(s, batches[..|batches| - 1], embed), batches[|batches| - 1], embed)
  }

  /** From import time, every run of stores keeps index and metadata aligned, with
      vector `i` the embedding of paragraph `i`; the metadata is the stored batches
      in order, and the files hold exactly the in-memory state: whatever an earlier
      process had saved is overwritten, not merged. */
  lemma {:induction false} StoresKeepAlignment(disk: Disk, batches: seq<seq<string>>, embed: string -> Vector)
    ensures Aligned(StoreAll(Initial(disk), batches, embed))
    ensures Embeds(StoreAll(Initial(disk), batches, embed).index, StoreAll(Initial(disk), batches, embed).metadata, embed)
    ensures StoreAll(Initial(disk), batches, embed).metadata == Flatten(batches)
    ensures |batches| > 0 ==>
      StoreAll(Initial(disk), batches, embed).disk ==
        Disk(Some(StoreAll(Initial(disk), batches, embed).index), Some(Flatten(batches)))
    decreases |batches|
  {
    if |batches| > 0 {
      var init := batches[..|batches| - 1];
      StoresKeepAlignment(disk, init, embed);
      assert init + [batches[|batches| - 1]] == batches;
      FlattenSnoc(init, batches[|batches| - 1]);
    }
  }

  /** Python's `xs[i]`: negative indices count from the end; anything else outside
      the list raises. */
  function PyIndex<T>(xs: seq<T>, i: int): Option<T>
  {
    if 0 <= i < |xs| then Some(xs[i])
    else if -|xs| <= i < 0 then Some(xs[|xs| + i])
    else None
  }

  /** The list comprehension of `query_faiss`: one hit per returned id, in order,
      `metadata[idx]` with Python's indexing and the distance at the same position. */
  function JoinHits(metadata: seq<string>, ids: seq<int>, distances: seq<real>): (r: Result<seq<Hit>, QueryError>)
    ensures r.Success? <==>
      (forall i :: 0 <= i < |ids| ==> -|metadata| <= ids[i] < |metadata|) && |ids| <= |distances|
    ensures r.Success? ==> |r.value| == |ids|
    ensures r.Success? ==> forall i :: 0 <= i < |ids| ==>
      r.value[i] == Hit(PyIndex(metadata, ids[i]).value, distances[i])
    decreases |ids|
  {
    if |ids| == 0 then Success([])
    else
      match PyIndex(metadata, ids[0])
      case None => Failure(IdOutOfRange(ids[0]))
      case Some(text) =>
        if |distances| == 0 then Failure(DistanceMissing)
        else
          match JoinHits(metadata, ids[1..], distances[1..])
          case Failure(e) => Failure(e)
          case Success(rest) => Success([Hit(text, distances[0])] + rest)
  }

  /** `query_faiss(query, top_k)`: read both files, embed the query, search the
      index read from the file, and join its ids against the metadata read from the
      file. Nothing of the in-memory state is read or written. */
  function QueryFaiss(s: Store, query: string, topK: int, embed: string -> Vector,
                      search: (seq<Vector>, Vector, int) -> SearchResult): (r: Result<seq<Hit>, QueryError>)
    ensures s.disk.indexFile.None? ==> r == Failure(IndexFileMissing)
    ensures s.disk.indexFile.Some? && s.disk.metadataFile.None? ==> r == Failure(MetadataFileMissing)
    ensures r.Success? ==> s.disk.indexFile.Some? && s.disk.metadataFile.Some?
    ensures s.disk.indexFile.Some? && s.disk.metadataFile.Some? ==>
      var found := search(s.disk.indexFile.value, embed(query), topK);
      var n := |s.disk.metadataFile.value|;
      (r.Success? <==> (forall i :: 0 <= i < |found.ids| ==> -n <= found.ids[i] < n) && |found.ids| <= |found.distances|)
    ensures r.Success? ==>
      var found := search(s.disk.indexFile.value, embed(query), topK);
      && |r.value| == |found.ids|
      && forall i :: 0 <= i < |found.ids| ==>
           r.value[i] == Hit(PyIndex(s.disk.metadataFile.value, found.ids[i]).value, found.distances[i])
    ensures r.Success? ==> forall i :: 0 <= i < |r.value| ==> r.value[i].text in s.disk.metadataFile.value
  {
    match s.disk.indexFile
    case None => Failure(IndexFileMissing)
    case Some(index) =>
      match s.disk.metadataFile
      case None => Failure(MetadataFileMissing)
      case Some(metadata) =>
        var found := search(index, embed(query), topK);
        JoinHits(metadata, found.ids, found.distances)
  }

  /** A query sees only the snapshot: two states with the same files answer alike,
      whatever their in-memory index and metadata hold. */
  lemma QueryReadsOnlyFiles(s1: Store, s2: Store, query: string, topK: int, embed: string -> Vector,
                            search: (seq<Vector>, Vector, int) -> SearchResult)
    requires s1.disk == s2.disk
    ensures QueryFaiss(s1, query, topK, embed, search) == QueryFaiss(s2, query, topK, embed, search)
  {
  }

  /** When every id is a real position, hit `i` is the paragraph stored at `ids[i]`. */
  lemma JoinHitsInRange(metadata: seq<string>, ids: seq<int>, distances: seq<real>)
    requires forall i :: 0 <= i < |ids| ==> 0 <= ids[i] < |metadata|
    requires |ids| <= |distances|
    ensures JoinHits(metadata, ids, distances).Success?
    ensures forall i :: 0 <= i < |ids| ==>
      JoinHits(metadata, ids, distances).value[i] == Hit(metadata[ids[i]], distances[i])
  {
  }

  /** FAISS marks a missing neighbour with id -1. `metadata[-1]` does not raise: the
      padded position silently reads the last paragraph. */
  lemma PaddingIdReadsLastParagraph(metadata: seq<string>, ids: seq<int>, distances: seq<real>, i: int)
    requires JoinHits(metadata, ids, distances).Success?
    requires 0 <= i < |ids| && ids[i] == -1
    ensures |metadata| > 0
    ensures JoinHits(metadata, ids, distances).value[i].text == metadata[|metadata| - 1]
  {
  }

  /** The paragraphs the module stores at import time. */
  const DemoParagraphs: seq<string> := [
    "The FOMC decided to maintain interest rates at 5.25%.",
    "Inflation expectations have declined compared to last quarter.",
    "GDP growth was revised downward due to tighter credit conditions.",
    "The Federal Reserve is monitoring labor market trends closely."
  ]

  /** The import-time demo stores four paragraphs and queries with the default
      `top_k` of five. An exact index with four entries can rank only four, so the
      fifth id is the padding -1, and the result repeats the last paragraph. */
  lemma DemoQueryRepeatsLastParagraph(disk: Disk, query: string, embed: string -> Vector,
                                      search: (seq<Vector>, Vector, int) -> SearchResult)
    requires var s := StoreInFaiss(Initial(disk), DemoParagraphs, embed);
      var found := search(s.index, embed(query), DefaultTopK);
      |found.ids| == DefaultTopK && |found.distances| == DefaultTopK &&
      (forall j :: 0 <= j < 4 ==> 0 <= found.ids[j] < 4) &&
      3 in found.ids[..4] && found.ids[4] == -1
    ensures var r := QueryFaiss(StoreInFaiss(Initial(disk), DemoParagraphs, embed), query, DefaultTopK, embed, search);
      && r.Success?
      && |r.value| == 5
      && r.value[4].text == DemoParagraphs[3]
      && exists j :: 0 <= j < 4 && r.value[j].text == DemoParagraphs[3]
  {
    var s := StoreInFaiss(Initial(disk), DemoParagraphs, embed);
    var found := search(s.index, embed(query), DefaultTopK);
    assert s.disk == Disk(Some(s.index), Some(DemoParagraphs));
    DemoJoinRepeatsLast(found.ids, found.distances);
  }

  /** The join behind the demo query: four real ids, one of them the last paragraph,
      then the padding id. */
  lemma DemoJoinRepeatsLast(ids: seq<int>, distances: seq<real>)
    requires |ids| == 5 && |distances| == 5
    requires forall j :: 0 <= j < 4 ==> 0 <= ids[j] < 4
    requires 3 in ids[..4] && ids[4] == -1
    ensures var r := JoinHits(DemoParagraphs, ids, distances);
      && r.Success?
      && |r.value| == 5
      && r.value[4].text == DemoParagraphs[3]
      && exists j :: 0 <= j < 4 && r.value[j].text == DemoParagraphs[3]
  {
    var r := JoinHits(DemoParagraphs, ids, distances);
    assert r.Success?;
    var j :| 0 <= j < 4 && ids[..4][j] == 3;
    assert ids[j] == 3;
    assert r.value[j].text == DemoParagraphs[3];
  }

  /** The intended join: a padding id (negative) stands for "no neighbour" and is
      skipped; every other id must be a real position. It is the join as written
      applied to the ids and distances that remain once the padding is dropped. */
  function JoinHitsSkippingPadding(metadata: seq<string>, ids: seq<int>, distances: seq<real>): (r: Result<seq<Hit>, QueryError>)
    ensures r.Success? <==>
      (forall i :: 0 <= i < |ids| ==> ids[i] < |metadata|) && |ids| <= |distances|
    ensures r.Success? ==> |r.value| == |RealIds(ids)|
    ensures r.Success? ==> r == JoinHits(metadata, RealIds(ids), RealDistances(ids, distances))
    decreases |ids|
  {
    if |ids| == 0 then Success([])
    else if ids[0] >= |metadata| then Failure(IdOutOfRange(ids[0]))
    else if |distances| == 0 then Failure(DistanceMissing)
    else
      match JoinHitsSkippingPadding(metadata, ids[1..], distances[1..])
      case Failure(e) => Failure(e)
      case Success(rest) =>
        if ids[0] < 0 then Success(rest)
        else Success([Hit(metadata[ids[0]], distances[0])] + rest)
  }

  /** The ids that name a stored paragraph, in order. */
  function RealIds(ids: seq<int>): (r: seq<int>)
    ensures forall i :: 0 <= i < |r| ==> 0 <= r[i]
    ensures forall i :: 0 <= i < |r| ==> r[i] in ids
    ensures forall i :: 0 <= i < |ids| && 0 <= ids[i] ==> ids[i] in r
  {
    if |ids| == 0 then []
    else if ids[0] >= 0 then [ids[0]] + RealIds(ids[1..])
    else RealIds(ids[1..])
  }

  /** Without padding nothing is dropped. */
  lemma {:induction false} RealIdsWithoutPadding(ids: seq<int>)
    requires forall i :: 0 <= i < |ids| ==> 0 <= ids[i]
    ensures RealIds(ids) == ids
    decreases |ids|
  {
    if |ids| > 0 {
      RealIdsWithoutPadding(ids[1..]);
      assert [ids[0]] + ids[1..] == ids;
    }
  }

  /** The distances that go with `RealIds(ids)`. */
  function RealDistances(ids: seq<int>, distances: seq<real>): (r: seq<real>)
    requires |ids| <= |distances|
    ensures |r| == |RealIds(ids)|
  {
    if |ids| == 0 then []
    else if ids[0] >= 0 then [distances[0]] + RealDistances(ids[1..], distances[1..])
    else RealDistances(ids[1..], distances[1..])
  }

  /** Without padding, the intended join and the join as written agree. */
  lemma {:induction false} SkippingPaddingAgreesWithoutPadding(metadata: seq<string>, ids: seq<int>, distances: seq<real>)
    requires forall i :: 0 <= i < |ids| ==> 0 <= ids[i]
    ensures JoinHitsSkippingPadding(metadata, ids, distances) == JoinHits(metadata, ids, distances)
    decreases |ids|
  {
    if |ids| > 0 && |distances| > 0 && ids[0] < |metadata| {
      SkippingPaddingAgreesWithoutPadding(metadata, ids[1..], distances[1..]);
    }
  }

  /** `query_faiss` with the intended join. */
  function QueryFaissSkippingPadding(s: Store, query: string, topK: int, embed: string -> Vector,
                                     search: (seq<Vector>, Vector, int) -> SearchResult): (r: Result<seq<Hit>, QueryError>)
    ensures s.disk.indexFile.None? ==> r == Failure(IndexFileMissing)
    ensures s.disk.indexFile.Some? && s.disk.metadataFile.None? ==> r == Failure(MetadataFileMissing)
    ensures r.Success? ==> s.disk.indexFile.Some? && s.disk.metadataFile.Some?
    ensures s.disk.indexFile.Some? && s.disk.metadataFile.Some? ==>
      var found := search(s.disk.indexFile.value, embed(query), topK);
      (r.Success? <==>
        (forall i :: 0 <= i < |found.ids| ==> found.ids[i] < |s.disk.metadataFile.value|) && |found.ids| <= |found.distances|)
    ensures r.Success? ==>
      var found := search(s.disk.indexFile.value, embed(query), topK);
      var kept := RealIds(found.ids);
      && |r.value| == |kept|
      && forall i :: 0 <= i < |kept| ==>
           r.value[i] == Hit(s.disk.metadataFile.value[kept[i]], RealDistances(found.ids, found.distances)[i])
    ensures r.Success? ==> forall i :: 0 <= i < |r.value| ==> r.value[i].text in s.disk.metadataFile.value
  {
    match s.disk.indexFile
    case None => Failure(IndexFileMissing)
    case Some(index) =>
      match s.disk.metadataFile
      case None => Failure(MetadataFileMissing)
      case Some(metadata) =>
        var found := search(index, embed(query), topK);
        JoinHitsSkippingPadding(metadata, found.ids, found.distances)
  }

  /** With padding only after the real ids, the real ids are the leading `k`. */
  lemma {:induction false} PaddedTailIds(ids: seq<int>, k: nat)
    requires k <= |ids|
    requires forall i :: 0 <= i < |ids| ==> (0 <= ids[i] <==> i < k)
    ensures RealIds(ids) == ids[..k]
    decreases |ids|
  {
    if |ids| > 0 {
      var rest := ids[1..];
      if k > 0 {
        assert forall i :: 0 <= i < |rest| ==> rest[i] == ids[i + 1];
        PaddedTailIds(rest, k - 1);
        assert RealIds(ids) == [ids[0]] + RealIds(rest);
        assert ids[..k] == [ids[0]] + rest[..k - 1];
      } else {
        assert forall i :: 0 <= i < |rest| ==> rest[i] == ids[i + 1];
        PaddedTailIds(rest, 0);
        assert RealIds(ids) == RealIds(rest);
      }
    }
  }

  /** ... and their distances are the leading `k` distances. */
  lemma {:induction false} PaddedTailDistances(ids: seq<int>, distances: seq<real>, k: nat)
    requires k <= |ids| <= |distances|
    requires forall i :: 0 <= i < |ids| ==> (0 <= ids[i] <==> i < k)
    ensures RealDistances(ids, distances) == distances[..k]
    decreases |ids|
  {
    if |ids| > 0 {
      var rest := ids[1..];
      var more := distances[1..];
      assert forall i :: 0 <= i < |rest| ==> rest[i] == ids[i + 1];
      var k' := if k > 0 then k - 1 else 0;
      PaddedTailDistances(rest, more, k');
      RealDistancesStep(ids, distances);
      if k > 0 {
        assert distances[..k] == [distances[0]] + more[..k'];
      }
    }
  }

  /** One step of `RealDistances`: the first distance is kept with a real id. */
  lemma RealDistancesStep(ids: seq<int>, distances: seq<real>)
    requires 0 < |ids| <= |distances|
    ensures RealDistances(ids, distances)
         == (if ids[0] >= 0 then [distances[0]] else []) + RealDistances(ids[1..], distances[1..])
  {
  }

  /** With the intended join the demo query returns the four stored paragraphs only:
      hit `j` is the paragraph at the `j`-th id, with that id's distance. */
  lemma DemoQuerySkipsPadding(disk: Disk, query: string, embed: string -> Vector,
                              search: (seq<Vector>, Vector, int) -> SearchResult)
    requires var s := StoreInFaiss(Initial(disk), DemoParagraphs, embed);
      var found := search(s.index, embed(query), DefaultTopK);
      |found.ids| == DefaultTopK && |found.distances| == DefaultTopK &&
      (forall j :: 0 <= j < 4 ==> 0 <= found.ids[j] < 4) && found.ids[4] == -1
    ensures var s := StoreInFaiss(Initial(disk), DemoParagraphs, embed);
      var found := search(s.index, embed(query), DefaultTopK);
      var r := QueryFaissSkippingPadding(s, query, DefaultTopK, embed, search);
      && r.Success? && |r.value| == 4
      && forall j :: 0 <= j < 4 ==> r.value[j] == Hit(DemoParagraphs[found.ids[j]], found.distances[j])
  {
    var s := StoreInFaiss(Initial(disk), DemoParagraphs, embed);
    var found := search(s.index, embed(query), DefaultTopK);
    assert s.disk.indexFile == Some(s.index);
    assert s.disk.metadataFile == Some(DemoParagraphs);
    PaddedTailIds(found.ids, 4);
    PaddedTailDistances(found.ids, found.distances, 4);
    var r := QueryFaissSkippingPadding(s, query, DefaultTopK, embed, search);
    assert r.Success?;
  }
}

=== FILE: wrappers.dfy ===
/** Failure-carrying values shared by every module of the model. */
module Wrappers {

  /** A value that may be absent: Python's `None` or a present value. */
  datatype Option<+T> = None | Some(value: T)

  /** The outcome of an operation that may raise: a value, or the error it raised. */
  datatype Result<+T, +E> = Success(value: T) | Failure(error: E)
}
